=== FILE: README.md ===
# Village portal: session, routing and page logic in Dafny

This project models the client of a village-administration portal.
Residents file complaints; administrators manage them; both can edit a
profile. The model covers four parts of the client.

- **The authentication session** (`Session`). This is the provider that holds
  `(user, profile, loading)`. Four kinds of event change it:
  - the one-shot session probe resolving;
  - the auth-change stream firing;
  - a profile fetch completing;
  - the operations `signIn`, `signUp`, `signOut` and `refreshProfile`.

  Every asynchronous completion is its own event in a sequential trace.
  Fetches that have started but not finished are kept in order in
  `pending`, and `ProfileFetched(slot, outcome)` completes the fetch at
  position `slot`. Every backend answer is an event parameter.
- **View routing** (`Navigation`).
  - The view is a page identifier plus a selected complaint id.
  - The redirect rule runs when the watched triple `(user, loading, isAdmin)`
    changes, the user being compared by identity.
  - Explicit navigation is unchecked.
  - `Resolve` is a total resolution from page and session to one screen.
  - `App`/`AppStep` combine the session and the view, so properties of whole
    traces can be stated.
- **The profile pages** (`ProfileForm`, `AdminProfile`, `UserProfile`, `Avatar`):
  `AdminProfilePage.tsx` and `ProfilePage.tsx`. The router's resident profile
  screen renders `UserProfilePage` instead, which is not part of this model.
  - The 2 MiB image gate.
  - The storage path `avatars/<id>-<time>.<ext>` and a parser for it.
  - The generated placeholder avatar URL.
  - The shared edit form and its save pipeline. The save runs upload, row
    update, optional e-mail update and refresh. The backend calls it makes are
    recorded as a sequence of effects.
  - The administrator's complaint statistics.
- **Two page helpers** (`Residents`, `Settings`).
  - The residents list: avatar defaulting, search, and a stable sort by name,
    by newest, or by nothing.
  - The settings page: switches, the language, password validation and the
    simulated save.

`Common` holds the shared vocabulary:
- `Option` and `Result`;
- JavaScript truthiness of strings (`Truthy`, `OrElse`);
- ASCII lower-casing and substring search, proved equivalent to an
  existential;
- decimal rendering of a number, with its parse round trip.

## Consequences of the missing stale-response guard

`fetchProfile` (src/contexts/AuthContext.tsx:71-95) stores whatever record
comes back (line 89), without comparing it with the current user. The
model does the same, and proves what follows on concrete traces:
- `Session.StaleProfileOverwritesNewer`: two stream sign-ins whose fetches
  complete in reverse order leave user two signed in with user one's record
  stored.
- `Session.ProfileOutlivesSignOut`: `signOut` (lines 165-169) clears user and
  profile, but a fetch still in flight stores its record afterwards, so
  there is no user yet an administrator profile is stored.

Two more behaviours of the same code:
- A failed fetch keeps the previous profile: the `catch` at lines 90-91
  does not touch it. `Session.OnFetched` states this.
- The session probe with no session (lines 45-52) sets `loading` to false
  and leaves the profile as it was; only the stream (lines 62-64) clears it.
  `Session.OnProbe` states this.

## Model

| member | source | states |
|---|---|---|
| Session.Init | src/contexts/AuthContext.tsx:39-41 | The provider mounts with no user, no profile, loading, and no fetch in flight. |
| Session.IsAdmin | src/contexts/AuthContext.tsx:171 | Administrator exactly when a profile is stored and its role is "admin"; never without a profile. |
| Session.OnProbe | src/contexts/AuthContext.tsx:45-52 | The probe sets the user. With a user it starts one fetch for that id; without one it ends loading and leaves the profile alone. |
| Session.OnAuthChange | src/contexts/AuthContext.tsx:57-66 | The stream sets the user. With a user it starts a fetch; without one it clears the profile and ends loading. |
| Session.OnFetched | src/contexts/AuthContext.tsx:71-95 | A completed fetch ends loading and leaves the user alone. Success stores the returned record; failure keeps the previous profile. The current user is not consulted. The completed fetch, and only it, leaves the in-flight list; the others keep their order. |
| Session.RefreshProfile | src/contexts/AuthContext.tsx:97-101 | The user captured by the page's render decides, not the session's current user. Without a captured user nothing happens. With one, a fetch for that user's id starts. The session's user, profile and loading flag stay as they were. |
| Session.RefreshAfterSignOut | src/contexts/AuthContext.tsx:97-101 | A refresh from a closure that captured the user before sign-out still starts a fetch. When that fetch completes, the signed-out session holds the user's profile again. |
| Session.SignIn | src/contexts/AuthContext.tsx:103-121 | Failure returns the provider's error and changes nothing. Success starts a fetch for the returned user and never sets the user itself. |
| Session.NewProfileRow | src/contexts/AuthContext.tsx:137-148 | The inserted row carries the new identity's id and the given e-mail, full name, NIK and address. The phone is the given one, or "" when none was given. The role is "user". |
| Session.SignUp | src/contexts/AuthContext.tsx:123-163 | The three steps run in order and the first failure is returned with the state unchanged. No identity gives "User creation failed". A row is inserted iff step 1 returned a user, and it is exactly `Session.NewProfileRow` for that user. Success starts the fetch. A failed insert returns the insert's own error. |
| Session.UserId | src/pages/AdminProfilePage.tsx:130 | `user?.id` is present iff there is a user, and then it is that user's id. |
| Session.SignOut | src/contexts/AuthContext.tsx:165-169 | User and profile are cleared; loading and the fetches in flight are untouched. |
| Session.SignOutIdempotent | src/contexts/AuthContext.tsx:165-169 | Signing out twice is the same as signing out once. |
| Session.SettledStaysSettled | src/contexts/AuthContext.tsx:41-95 | Once loading is false, no sequence of events makes it true again. |
| Session.ProfileComesFromFetch | src/contexts/AuthContext.tsx:89 | After any trace the stored profile is absent, unchanged, or a record some fetch in the trace delivered. |
| Session.StaleProfileOverwritesNewer | src/contexts/AuthContext.tsx:57-95 | Two stream sign-ins whose fetches complete in reverse order leave user two with user one's record stored. |
| Session.ProfileOutlivesSignOut | src/contexts/AuthContext.tsx:165-169 | A fetch completing after sign-out leaves no user but an administrator's profile, so isAdmin holds. |
| Session.ProbeThenStreamSameUser | src/contexts/AuthContext.tsx:43-66 | Probe and stream both report the same user; after both fetches complete the session is settled with that user's record. |
| Session.SignUpNeverGrantsAdmin | src/contexts/AuthContext.tsx:147 | When sign-up's own fetch returns the row it inserted, the session is settled and not administrator. |
| Session.SignUpInsertFails | src/contexts/AuthContext.tsx:150-153 | A failed insert returns its error, starts no fetch and leaves the profile absent. |
| Session.Step | src/contexts/AuthContext.tsx:43-169 | One event of the provider. No event sets loading back to true, and a stored profile other than the previous one is exactly the record a completing fetch returned. |
| Navigation.InitView | src/App.tsx:23-24 | The view starts on the public landing page with no complaint selected. |
| Navigation.WatchOf | src/App.tsx:22 | The watched triple is the session's user, its loading flag and `Session.IsAdmin` of the session; isAdmin implies a stored profile. |
| Navigation.HomeOf | src/App.tsx:30 | "admin-dashboard" exactly for an administrator, "dashboard" otherwise; neither is public nor the profile page. |
| Navigation.Redirect | src/App.tsx:26-38 | Loading changes nothing. Settled with a user, the result is never public and a public page becomes the role's dashboard. Settled without one, the result is always public and a gated page becomes the landing page. Otherwise the view is kept, and the complaint id never changes. |
| Navigation.RedirectIdempotent | src/App.tsx:26-38 | Applying the redirect twice is the same as applying it once. |
| Navigation.Navigate | src/App.tsx:40-45 | The page is always replaced. The complaint id is replaced only by a present, non-empty one. |
| Navigation.Resolve | src/App.tsx:47-127 | Exactly one screen. The loading screen iff loading. A public screen iff settled with no user. Profile screens iff the page is "profile". Admin screens iff isAdmin; resident screens iff not. |
| Navigation.RedirectKeepsScreen | src/App.tsx:26-38 | The redirect never changes the screen that is shown, only the page identifier. |
| Navigation.AdminAskingForUserDashboard | src/App.tsx:78-102 | An administrator who navigates to the resident dashboard is shown the admin dashboard. |
| Navigation.SignedOutAskingForProfile | src/App.tsx:59-68 | A signed-out visitor who navigates to the profile page is shown the landing page. |
| Navigation.AppStep | src/App.tsx:26-45 | A session event runs the redirect iff the watched triple changed or it delivered a user object; otherwise the view stays. Navigation leaves the session alone and applies handleNavigate. |
| Navigation.AppStepAgrees | src/App.tsx:26-38 | Every session event preserves the invariant: once settled, the page is public iff there is no user. |
| Navigation.SessionTracesAgree | src/App.tsx:26-38 | Any trace of session events alone preserves that invariant. |
| Navigation.InitAgrees | src/App.tsx:23-56 | The initial app state satisfies the invariant and shows the loading screen. |
| Navigation.NavigationIsNotChecked | src/App.tsx:40-45 | A signed-out visitor who navigates to the dashboard breaks the invariant, yet is shown the landing page. |
| Navigation.SignOutLandsOnLanding | src/App.tsx:32-36 | Signing out of a settled session from a gated page lands on, and shows, the landing page. |
| Navigation.SameUserAgainRedirects | src/App.tsx:26-38 | A settled resident who navigated to "login" is sent back to "dashboard" when the stream delivers the same user again; a sign-out then shows the landing page. |
| Common.OrElse | src/pages/ProfilePage.tsx:25 | JavaScript `s or fallback`: the string when it is present and non-empty, otherwise the fallback. |
| Common.Lower | src/pages/ResidentsPage.tsx:55 | Same length, with each character lower-cased. |
| Common.Includes | src/pages/ResidentsPage.tsx:55-57 | True iff the term occurs at some position of the text. |
| Common.Decimal | src/pages/ProfilePage.tsx:52 | The rendering of `Date.now()` is non-empty, all digits, with no leading zero. |
| Common.DecimalRoundTrip | src/pages/ProfilePage.tsx:52 | Parsing the decimal rendering gives the number back. |
| Avatar.ChooseImage | src/pages/ProfilePage.tsx:31-47 | No file: nothing changes. Oversized file: error set, selection kept. Otherwise: selected, error cleared. A newly selected file is never over the limit. |
| Avatar.IdText | src/pages/ProfilePage.tsx:52 | `${user?.id}` is the id, or "undefined" without a user. |
| Avatar.SelectionStaysWithinLimit | src/pages/ProfilePage.tsx:33-39 | Over any sequence of picks, the selected file never exceeds 2 MiB. |
| Avatar.Extension | src/pages/ProfilePage.tsx:51 | The extension never contains a dot. |
| Avatar.ExtensionIsLastPart | src/pages/ProfilePage.tsx:51 | The extension is the text after the last dot of the file name, or the whole name when it has no dot. |
| Avatar.AvatarPath | src/pages/ProfilePage.tsx:51-53 | The path lies in the "avatars/" folder. |
| Avatar.ParseAvatarNameRoundTrip | src/pages/ProfilePage.tsx:52 | A file name `owner-stamp.ext` with no dot in the extension parses back to exactly that owner, stamp and extension, for any owner text. |
| Avatar.AvatarPathRoundTrip | src/pages/ProfilePage.tsx:51-53 | Parsing a path from the right recovers the owner id ("undefined" without a user), the time and the extension, even when the id contains dashes. |
| Avatar.Placeholder | src/pages/ProfilePage.tsx:26 | The placeholder is a ui-avatars URL. |
| ProfileForm.ChooseImage | src/pages/AdminProfilePage.tsx:66-82 | The form runs the shared size gate; nothing but the selection and the error changes. |
| ProfileForm.Started | src/pages/ProfilePage.tsx:73-75 | A save first sets the form busy and clears both messages, changing nothing else. |
| ProfileForm.FailureText | src/pages/ProfilePage.tsx:118 | The reported error is never empty; it is the error's message when that is non-empty. |
| ProfileForm.WriteRow | src/pages/ProfilePage.tsx:90-115 | The calls are exactly the earlier uploads, the row update, then the e-mail update only when the row succeeded and a change is requested, then the refresh only when every step succeeded. A row error stops the save with its message. |
| ProfileForm.SaveWithoutImage | src/pages/ProfilePage.tsx:78-115 | Without an image, the save makes exactly the calls of the save contract, starting at the row update with the edited avatar URL. A failed row or e-mail update reports that error's message, or the generic text. |
| ProfileForm.UploadFailed | src/pages/ProfilePage.tsx:81-87 | When the upload yields no URL, the upload is the only call and the save reports the upload failure. |
| ProfileForm.Uploaded | src/pages/ProfilePage.tsx:81-115 | When the upload yields a URL, the save makes exactly the calls of the save contract, and the row update stores that URL. A failed row or e-mail update reports that error's message, or the generic text. |
| ProfileForm.Save | src/pages/ProfilePage.tsx:72-122 | The calls are exactly: the upload when an image was chosen; the row update once the upload gave a URL; the e-mail update once the row succeeded and a change is requested; the refresh once everything succeeded. The row gets the uploaded URL or the edited one. Error is empty iff all steps succeeded. Success leaves editing with no image. Failure keeps the form. Never left loading. A failed row update reports its error message, or the generic text when the message is empty; a failed e-mail update does the same with its own error. |
| ProfileForm.Cancel | src/pages/ProfilePage.tsx:124-134 | The restored values are shown; editing, image, preview and error are cleared. |
| AdminProfile.InitialPage | src/pages/AdminProfilePage.tsx:13-22 | The page opens not editing, not busy, with no image, preview or messages, and empty phone and avatar. |
| AdminProfile.Prefill | src/pages/AdminProfilePage.tsx:30-38 | With a profile the form shows its phone or "" and its avatar or the blue placeholder, so the avatar is never empty. Without a profile nothing changes. |
| AdminProfile.CancelEdit | src/pages/AdminProfilePage.tsx:149-158 | The form gets the profile's phone and avatar, "" when absent, and leaves editing. Image, preview and error are cleared. The busy flag and the success text are kept. |
| AdminProfile.CancelVersusPrefill | src/pages/AdminProfilePage.tsx:149-158 | Cancel agrees with the prefill when the profile has an avatar. Without one, cancel shows an empty avatar where the prefill shows the placeholder. |
| AdminProfile.SaveProfile | src/pages/AdminProfilePage.tsx:84-147 | Never an e-mail update. A failed upload to `avatars/<user?.id>-<now>.<ext>` is the only call and reports its message. The row gets the edited phone and the right URL. A row error ends the save with the row update last. Error is empty iff upload and row succeed, iff the save refreshes. Failure keeps editing, image and preview. The calls made are exactly those `ProfileForm.SaveEffects` lays out, so nothing else is called. The edited data is kept. Success shows "Profil berhasil diperbarui!"; failure clears the success text. The whole shared save contract `ProfileForm.SaveOutcome` holds. |
| AdminProfile.CountStatus | src/pages/AdminProfilePage.tsx:57-58 | The count is the multiplicity of the status among the complaints. |
| AdminProfile.TwoStatusesWithinTotal | src/pages/AdminProfilePage.tsx:55-60 | Two different statuses together never count more than the total. |
| AdminProfile.RowCount | src/pages/AdminProfilePage.tsx:56 | The row count of a query result, 0 when it returned no rows object. |
| AdminProfile.FetchStats | src/pages/AdminProfilePage.tsx:40-64 | Either query failing keeps the previous statistics. Otherwise the totals are the row counts and solved/pending are exact multiplicities, which never exceed the total. |
| AdminProfile.FailedFetchShowsZeros | src/pages/AdminProfilePage.tsx:23-28 | The statistics start at zero and stay there while a query fails. |
| UserProfile.InitialPage | src/pages/ProfilePage.tsx:9-19 | The page opens not editing, not busy, with no image, preview or messages, and empty e-mail, phone and avatar. |
| UserProfile.EmailOf | src/pages/ProfilePage.tsx:24 | `user?.email`: the user's e-mail when there is a user, absent without one. |
| UserProfile.Prefill | src/pages/ProfilePage.tsx:21-29 | With a profile the form shows the user's e-mail or "", the phone or "", and the avatar or the green placeholder. Without a profile nothing changes. |
| UserProfile.CancelEdit | src/pages/ProfilePage.tsx:124-134 | E-mail, phone and avatar go back to the stored values, "" when absent, and editing stops. Image, preview and error are cleared. The busy flag and the success text are kept. |
| UserProfile.CancelRestoresPrefill | src/pages/ProfilePage.tsx:124-134 | When the profile has an avatar, cancel restores exactly what the prefill showed. |
| UserProfile.EmailChange | src/pages/ProfilePage.tsx:102 | An e-mail update is requested iff the edited address differs from the user's, including when there is no user. |
| UserProfile.SaveProfile | src/pages/ProfilePage.tsx:49-122 | With an image the first call uploads to `avatars/<user?.id>-<now>.<ext>`, and its failure is the only call. The row gets the edited phone and the uploaded or edited URL. A row error means no e-mail update. Any e-mail update directly follows the row and is the requested change. Error is empty iff upload, row and any needed e-mail update succeed, iff the save refreshes. Success leaves editing; failure keeps editing, image and preview. A failed row or e-mail update reports that error's message, or the generic text. The calls made are exactly those `ProfileForm.SaveEffects` lays out, so nothing else is called. The edited data is kept. Success shows "Profil berhasil diperbarui!"; failure clears the success text. The whole shared save contract `ProfileForm.SaveOutcome` holds. |
| UserProfile.SaveSteps | src/pages/ProfilePage.tsx:77-115 | A failed upload is the only call made. A differing e-mail is sent once the row is written. A clean save leaves editing and ends with a refresh. |
| UserProfile.EmailFailureKeepsRowUpdate | src/pages/ProfilePage.tsx:90-107 | A failing e-mail change follows a completed row update, reports an error and does not refresh. |
| Residents.FirstLoadShowsEveryone | src/pages/ResidentsPage.tsx:12-45 | The first successful load shows every fetched resident, each with an avatar, with no search term and "name" selected. |
| Residents.FailedFirstLoadShowsNothing | src/pages/ResidentsPage.tsx:12-17 | A failed first load leaves both lists empty and ends loading. |
| Residents.DefaultAvatars | src/pages/ResidentsPage.tsx:33-36 | Residents with an avatar are unchanged. The others get the green placeholder and nothing else changes, so every avatar is then non-empty. |
| Residents.DefaultAvatarsIdempotent | src/pages/ResidentsPage.tsx:33-36 | Filling in avatars twice is the same as once. |
| Residents.Loaded | src/pages/ResidentsPage.tsx:23-45 | A successful query replaces both lists with the defaulted rows; a failure keeps them. Loading ends either way. |
| Residents.Matches | src/pages/ResidentsPage.tsx:54-58 | The empty term matches every resident, and so does any part of the NIK. |
| Residents.Filter | src/pages/ResidentsPage.tsx:54-58 | A resident is kept iff it is in the list and matches the name, NIK or non-empty phone. |
| Residents.FilterAppend | src/pages/ResidentsPage.tsx:54-58 | Filtering distributes over concatenation, so relative order is kept. |
| Residents.EmptyTermKeepsAll | src/pages/ResidentsPage.tsx:49-52 | The empty term matches everyone, so the early return equals filtering. |
| Residents.Search | src/pages/ResidentsPage.tsx:47-60 | The term is recorded and the list shown is the full list filtered by it; nothing else changes. |
| Residents.SearchForgetsHistory | src/pages/ResidentsPage.tsx:47-60 | The result depends only on the full list and the term, not on earlier searches or sorts. |
| Residents.Insert | src/pages/ResidentsPage.tsx:64-73 | Insertion adds exactly one copy of the element. |
| Residents.SortStable | src/pages/ResidentsPage.tsx:64-73 | The sorted list is a permutation of the input. |
| Residents.SortStableSorted | src/pages/ResidentsPage.tsx:64-73 | With a total preorder, the result is in order. |
| Residents.AllEqualKeepsOrder | src/pages/ResidentsPage.tsx:70-71 | A comparator that calls everything equal leaves the list unchanged. |
| Residents.Comparator | src/pages/ResidentsPage.tsx:64-73 | "name" compares by the collation of full names; "newest" puts the later creation time first; any other key calls everything equal. |
| Residents.SortView | src/pages/ResidentsPage.tsx:62-75 | The key is recorded; the list shown is permuted; the full list and term are untouched. |
| Residents.UnknownKeyKeepsOrder | src/pages/ResidentsPage.tsx:70-71 | An unknown sort key leaves the list shown exactly as it was. |
| Residents.NewestFirst | src/pages/ResidentsPage.tsx:68-69 | Sorting by "newest" puts later creation times first. |
| Residents.ByNameInOrder | src/pages/ResidentsPage.tsx:66-67 | Sorting by "name" follows the collation whenever it is a total preorder. |
| Settings.InitialSwitches | src/pages/SettingsPage.tsx:10-18 | E-mail notifications, complaint updates and admin messages start on; push, SMS and two-factor authentication start off; the language is "id". |
| Settings.Toggle | src/pages/SettingsPage.tsx:33-35 | Exactly the named switch flips; every other switch and the language stay. |
| Settings.ToggleTwice | src/pages/SettingsPage.tsx:33-35 | Toggling a switch twice restores the settings. |
| Settings.TogglesCommute | src/pages/SettingsPage.tsx:33-35 | Toggles of any two switches commute. |
| Settings.SetLanguage | src/pages/SettingsPage.tsx:379 | Only the language changes. |
| Settings.LanguageAndToggleCommute | src/pages/SettingsPage.tsx:379 | Choosing a language commutes with toggling a switch. |
| Settings.Submit | src/pages/SettingsPage.tsx:37-57 | Both messages are cleared. Error is empty iff all three fields are filled, new equals confirmation, and new has 6 or more characters. A missing field gives the required message, a mismatch the mismatch message, and a filled, matching password under 6 characters the too-short message. Loading starts only for acceptable input. |
| Settings.MismatchReportedBeforeLength | src/pages/SettingsPage.tsx:46-54 | For every filled form whose new password is under 6 characters and differs from the confirmation, the mismatch is reported, not the length, and no save starts. |
| Settings.Complete | src/pages/SettingsPage.tsx:59-62 | Completion reports success, empties the form and ends loading. |
| Settings.CompletedFormIsRefused | src/pages/SettingsPage.tsx:41-44 | Submitting again right after completion is refused as incomplete. |
| Settings.ClearSuccess | src/pages/SettingsPage.tsx:63 | The later timer clears only the success text. |
| Settings.StartSaveSettings | src/pages/SettingsPage.tsx:67-68 | Saving the settings starts loading and changes nothing else. |
| Settings.FinishSaveSettings | src/pages/SettingsPage.tsx:70-72 | The simulated save reports success and ends loading. |
| Settings.SaveSettingsKeepsPasswordForm | src/pages/SettingsPage.tsx:67-75 | A settings save leaves the password form as it was. |

## Left out

- Network, storage and the identity provider are not called. Each answer is a parameter or an event: the probe result, stream deliveries, fetch outcomes, sign-in/sign-up replies, the insert error, the upload URL, row and e-mail errors, and query results.
- The timing of asynchronous completions is a free choice of the trace. Nothing forces a fetch to complete, so a hung call leaving `loading` true is a possible trace.
- `console` logging, the `FileReader` preview, JSX rendering, the 3-second success timers on the profile pages, and the subscription's unsubscribe on unmount are not modelled.
- src/contexts/ThemeContext.tsx and src/components/ConfirmDialog.tsx are not part of this model. The theme toggle on the settings page is left out with them.
- The show/hide password switches on the settings page only affect rendering and are left out.
- `encodeURIComponent`, `localeCompare`, `new Date(...).getTime()` and `Date.now()` are parameters. An invalid date giving NaN is not modelled; creation times are integers.
- Navigation.AppStep: React compares the watched user by identity. The model treats every user the probe or the stream delivers as a new object, so such an event always re-runs the redirect, and no other event does. Whether the provider ever hands back the same object twice is not modelled.
- `Session.SignIn`: the real `signIn` awaits the profile fetch before returning. The model returns at once and delivers the fetch as a later `ProfileFetched` event, which only widens the traces considered.
- `Session.SignUp`: the real `signUp` likewise awaits the profile fetch of step 3 before returning. The model returns once the fetch has started and delivers it as a later `ProfileFetched` event.
- `Common.Lower`: lower-cases only the ASCII letters, not the full Unicode mapping of `toLowerCase`.
- `Settings.Submit`: counts characters of the password, whereas JavaScript `length` counts UTF-16 code units; the two agree on the basic multilingual plane.
- `Residents.SortStable`: stability is proved only for the comparator that calls everything equal (`Residents.AllEqualKeepsOrder`); the general statement about elements that compare equal is not proved. `Array.prototype.sort` with an inconsistent comparator is implementation-defined and not modelled.
- `Residents.Loaded`: the server-side order by full name is taken as given in the rows. A successful query with null data, which throws inside the `map`, is not modelled.
- `Avatar.Placeholder`: the URL is only known to start with the ui-avatars base, since `encodeURIComponent` is a parameter.
- `AdminProfile.FetchStats` only takes the results of the two queries; the effect that re-runs it on every profile change is not modelled.
- `Settings.FinishSaveSettings`: the settings save is a simulation in the source and sends nothing; neither does the model.

=== FILE: admin_profile.dfy ===
/**
 The administrator's profile page (src/pages/AdminProfilePage.tsx): the
 edit form for phone and avatar, and the complaint statistics shown beside
 it.
 */
module AdminProfile {
  import opened Common
  import Avatar
  import Session
  import ProfileForm

  datatype AdminEdit = AdminEdit(phone: string, avatarUrl: string)

  type Page = ProfileForm.Form<AdminEdit>

  function InitialPage(): (f: Page)
    ensures !f.editing && !f.loading && f.imageFile.None? && f.preview.None?
    ensures f.data == AdminEdit("", "") && f.error == "" && f.success == ""
  {
    ProfileForm.Form(false, AdminEdit("", ""), None, None, false, "", "")
  }

  /**
   The effect that runs when the profile changes: with a profile, the form is
   filled with its phone (empty when absent) and its avatar, or a generated
   placeholder when it has none; without one nothing changes.
   */
  function Prefill(f: Page, profile: Option<Session.Profile>, encode: string -> string): (r: Page)
    ensures profile.None? ==> r == f
    ensures profile.Some? ==> r == f.(data := r.data)
    ensures profile.Some? ==> r.data.phone == OrElse(profile.value.phone, "")
    ensures profile.Some? && Truthy(profile.value.avatarUrl) ==> r.data.avatarUrl == profile.value.avatarUrl.value
    ensures profile.Some? && !Truthy(profile.value.avatarUrl) ==>
      r.data.avatarUrl == Avatar.Placeholder(profile.value.fullName, Avatar.AdminColours, encode)
    ensures profile.Some? ==> r.data.avatarUrl != ""
  {
    match profile
    case None => f
    case Some(p) =>
      f.(data := AdminEdit(OrElse(p.phone, ""),
                           OrElse(p.avatarUrl, Avatar.Placeholder(p.fullName, Avatar.AdminColours, encode))))
  }

  /**
   `handleCancel`: phone and avatar go back to the profile's stored values,
   with the empty string (not the placeholder) for an absent one.
   */
  function CancelEdit(f: Page, profile: Option<Session.Profile>): (r: Page)
    ensures profile.Some? ==> r.data == AdminEdit(OrElse(profile.value.phone, ""), OrElse(profile.value.avatarUrl, ""))
    ensures profile.None? ==> r.data == AdminEdit("", "")
    ensures !r.editing && r.imageFile.None? && r.preview.None? && r.error == ""
    ensures r.loading == f.loading && r.success == f.success
  {
    var restored := match profile
      case None => AdminEdit("", "")
      case Some(p) => AdminEdit(OrElse(p.phone, ""), OrElse(p.avatarUrl, ""));
    ProfileForm.Cancel(f, restored)
  }

  /**
   Cancel and the prefill agree when the profile has an avatar; when it has
   none, the prefill shows the placeholder but cancel leaves the avatar empty.
   */
  lemma CancelVersusPrefill(f: Page, g: Page, p: Session.Profile, encode: string -> string)
    ensures Truthy(p.avatarUrl) ==> CancelEdit(g, Some(p)).data == Prefill(f, Some(p), encode).data
    ensures !Truthy(p.avatarUrl) ==>
      CancelEdit(g, Some(p)).data.avatarUrl == "" && Prefill(f, Some(p), encode).data.avatarUrl != ""
  {
  }

  /**
   `handleSave` on this page: upload (when an image was chosen), then the row
   update with the edited phone; no e-mail step.
   */
  function SaveProfile(f: Page, user: Option<Session.User>, now: nat, uploaded: Option<string>,
                       rowError: Option<ProviderError>): (r: ProfileForm.Saved<AdminEdit>)
    ensures !r.form.loading
    ensures r.effects == ProfileForm.SaveEffects(f, Session.UserId(user), ProfileForm.UploadPath(f, Session.UserId(user), now),
                                                 f.data.phone, f.data.avatarUrl, None, uploaded, rowError, None)
    ensures ProfileForm.SaveOutcome(f, Session.UserId(user), ProfileForm.UploadPath(f, Session.UserId(user), now),
                                    f.data.phone, f.data.avatarUrl, None, uploaded, rowError, None, r)
    ensures r.form.data == f.data
    ensures r.form.error == "" ==> r.form.success == ProfileForm.SavedMessage
    ensures r.form.error != "" ==> r.form.success == ""
    ensures forall i :: 0 <= i < |r.effects| ==> !r.effects[i].UpdateEmail?
    ensures f.imageFile.Some? && !Truthy(uploaded) ==>
      && r.effects == [ProfileForm.Upload(Avatar.AvatarPath(Session.UserId(user), now, f.imageFile.value.name))]
      && r.form.error == ProfileForm.UploadFailedMessage
    ensures f.imageFile.None? ==>
      |r.effects| > 0 && r.effects[0] == ProfileForm.UpdateRow(Session.UserId(user), f.data.phone, f.data.avatarUrl)
    ensures f.imageFile.Some? && Truthy(uploaded) ==>
      |r.effects| > 1 && r.effects[1] == ProfileForm.UpdateRow(Session.UserId(user), f.data.phone, uploaded.value)
    ensures r.form.error == "" <==> (f.imageFile.None? || Truthy(uploaded)) && rowError.None?
    ensures r.form.error == "" ==>
      !r.form.editing && r.form.preview.None? && r.form.imageFile.None? && ProfileForm.Refreshed(r.effects)
    ensures ProfileForm.Refreshed(r.effects) <==> r.form.error == ""
    ensures r.form.error != "" ==>
      r.form.editing == f.editing && r.form.imageFile == f.imageFile && r.form.preview == f.preview
    ensures rowError.Some? && (f.imageFile.None? || Truthy(uploaded)) ==>
      r.effects[|r.effects| - 1].UpdateRow? && r.form.error == ProfileForm.FailureText(rowError.value.message)
  {
    ProfileForm.Save(f, Session.UserId(user), ProfileForm.UploadPath(f, Session.UserId(user), now), f.data.phone, f.data.avatarUrl, None, uploaded, rowError, None)
  }

  // ---------------------------------------------------------------------------
  // Complaint statistics
  // ---------------------------------------------------------------------------

  datatype Stats = Stats(totalComplaints: nat, solvedComplaints: nat, pendingComplaints: nat, totalUsers: nat)

  const SolvedStatus := "Solved"
  const PendingStatus := "Pending"

  function InitialStats(): Stats {
    Stats(0, 0, 0, 0)
  }

  /** Until a fetch of both queries succeeds, the page shows zero for everything. */
  lemma FailedFetchShowsZeros(complaints: Result<Option<seq<string>>>, users: Result<Option<seq<string>>>)
    requires complaints.Err? || users.Err?
    ensures FetchStats(InitialStats(), complaints, users) == Stats(0, 0, 0, 0)
  {
  }

  /** How many complaints carry exactly `status`. */
  function CountStatus(statuses: seq<string>, status: string): (n: nat)
    ensures n == multiset(statuses)[status]
    decreases |statuses|
  {
    if |statuses| == 0 then 0
    else
      assert statuses == [statuses[0]] + statuses[1..];
      (if statuses[0] == status then 1 else 0) + CountStatus(statuses[1..], status)
  }

  /** Two different statuses together never count more complaints than there are. */
  lemma {:induction false} TwoStatusesWithinTotal(statuses: seq<string>, a: string, b: string)
    requires a != b
    ensures CountStatus(statuses, a) + CountStatus(statuses, b) <= |statuses|
    decreases |statuses|
  {
    if |statuses| > 0 {
      TwoStatusesWithinTotal(statuses[1..], a, b);
    }
  }

  /** `rows?.length || 0`. */
  function RowCount<T>(rows: Option<seq<T>>): (n: nat)
    ensures rows.Some? ==> n == |rows.value|
    ensures rows.None? ==> n == 0
  {
    if rows.Some? then |rows.value| else 0
  }

  /**
   `fetchAdminStats`, given the complaint statuses and the resident ids the
   two queries return. Either query failing keeps the previous statistics;
   the resident query only matters once the complaint query succeeded.
   */
  function FetchStats(prev: Stats, complaints: Result<Option<seq<string>>>, users: Result<Option<seq<string>>>): (r: Stats)
    ensures complaints.Err? || users.Err? ==> r == prev
    ensures complaints.Ok? && users.Ok? ==>
      var cs := if complaints.value.Some? then complaints.value.value else [];
      && r.totalComplaints == |cs|
      && r.solvedComplaints == multiset(cs)[SolvedStatus]
      && r.pendingComplaints == multiset(cs)[PendingStatus]
      && r.solvedComplaints + r.pendingComplaints <= r.totalComplaints
      && r.totalUsers == RowCount(users.value)
  {
    match complaints
    case Err(_) => prev
    case Ok(rows) =>
      match users
      case Err(_) => prev
      case Ok(ids) =>
        var cs := if rows.Some? then rows.value else [];
        TwoStatusesWithinTotal(cs, SolvedStatus, PendingStatus);
        Stats(RowCount(rows), CountStatus(cs, SolvedStatus), CountStatus(cs, PendingStatus), RowCount(ids))
  }
}

=== FILE: avatar.dfy ===
/**
 Avatar handling shared by the profile pages and the residents list: the
 2 MiB size gate on a chosen image, the storage path an upload is written
 to, and the generated placeholder URL used when a profile has no avatar.
 */
module Avatar {
  import opened Common

  /** A file chosen in the file picker: its name and its size in bytes. */
  datatype FileRef = FileRef(name: string, size: nat)

  const MaxAvatarBytes: nat := 2 * 1024 * 1024
  const TooLargeMessage := "Ukuran file maksimal 2MB"

  /** The selected image and the page's error text after a pick. */
  datatype Pick = Pick(imageFile: Option<FileRef>, error: string)

  /**
   `handleImageChange`: nothing happens when no file was chosen; a file over
   the limit sets the error and leaves the selection as it was; any other
   file becomes the selection and clears the error.
   */
  function ChooseImage(current: Pick, chosen: Option<FileRef>): (r: Pick)
    ensures chosen.None? ==> r == current
    ensures chosen.Some? && chosen.value.size > MaxAvatarBytes ==>
      r.imageFile == current.imageFile && r.error == TooLargeMessage
    ensures chosen.Some? && chosen.value.size <= MaxAvatarBytes ==>
      r.imageFile == chosen && r.error == ""
    ensures r.imageFile.Some? ==> r.imageFile == current.imageFile || r.imageFile == chosen
    ensures r.imageFile != current.imageFile ==> r.imageFile.value.size <= MaxAvatarBytes
  {
    match chosen
    case None => current
    case Some(f) =>
      if f.size > MaxAvatarBytes then current.(error := TooLargeMessage)
      else Pick(chosen, "")
  }

  /** No pick ever selects an oversized file that was not already selected. */
  lemma {:induction false} SelectionStaysWithinLimit(p: Pick, picks: seq<Option<FileRef>>)
    requires p.imageFile.Some? ==> p.imageFile.value.size <= MaxAvatarBytes
    ensures var r := ChooseAll(p, picks);
            r.imageFile.Some? ==> r.imageFile.value.size <= MaxAvatarBytes
    decreases |picks|
  {
    if |picks| > 0 {
      SelectionStaysWithinLimit(ChooseImage(p, picks[0]), picks[1..]);
    }
  }

  function ChooseAll(p: Pick, picks: seq<Option<FileRef>>): Pick
    decreases |picks|
  {
    if |picks| == 0 then p else ChooseAll(ChooseImage(p, picks[0]), picks[1..])
  }

  // ---------------------------------------------------------------------------
  // Upload path
  // ---------------------------------------------------------------------------

  /**
   `name.split('.').pop()`: the text after the last dot, or the whole name
   when it has no dot. `ExtensionIsLastPart` characterises it.
   */
  function Extension(name: string): (r: string)
    ensures '.' !in r
    decreases |name|
  {
    if |name| == 0 then ""
    else if name[|name| - 1] == '.' then ""
    else Extension(name[..|name| - 1]) + [name[|name| - 1]]
  }

  /** `${user?.id}`: a missing user renders as "undefined". */
  function IdText(userId: Option<string>): (t: string)
    ensures userId.Some? ==> t == userId.value
    ensures userId.None? ==> t == "undefined"
  {
    match userId
    case Some(id) => id
    case None => "undefined"
  }

  const AvatarFolder := "avatars/"

  /** `avatars/<userId>-<now>.<ext>`, `now` being `Date.now()`. */
  function AvatarPath(userId: Option<string>, now: nat, fileName: string): (path: string)
    ensures |path| > |AvatarFolder| && path[..|AvatarFolder|] == AvatarFolder
  {
    AvatarFolder + IdText(userId) + "-" + Decimal(now) + "." + Extension(fileName)
  }

  /** The parts an avatar path is made of. */
  datatype PathParts = PathParts(owner: string, stamp: nat, ext: string)

  /** The last position of `c` in `s`, if any. */
  function LastIndex(s: string, c: char): (r: Option<nat>)
    ensures r.None? <==> c !in s
    ensures r.Some? ==> r.value < |s| && s[r.value] == c && c !in s[r.value + 1..]
    decreases |s|
  {
    if |s| == 0 then None
    else if s[|s| - 1] == c then Some(|s| - 1)
    else
      var r := LastIndex(s[..|s| - 1], c);
      assert s == s[..|s| - 1] + [s[|s| - 1]];
      r
  }

  /**
   The extension is what follows the last dot of the name, and the whole
   name when it has no dot.
   */
  lemma {:induction false} ExtensionIsLastPart(name: string)
    ensures LastIndex(name, '.').None? ==> Extension(name) == name
    ensures LastIndex(name, '.').Some? ==> Extension(name) == name[LastIndex(name, '.').value + 1..]
    decreases |name|
  {
    if |name| > 0 && name[|name| - 1] != '.' {
      var init := name[..|name| - 1];
      var c := name[|name| - 1];
      ExtensionIsLastPart(init);
      assert Extension(name) == Extension(init) + [c];
      assert LastIndex(name, '.') == LastIndex(init, '.');
      match LastIndex(init, '.') {
        case None =>
          assert name == init + [c];
        case Some(k) =>
          assert name[k + 1..] == init[k + 1..] + [c];
      }
    }
  }

  /** Splits `s` around the last occurrence of `c`. */
  function SplitLast(s: string, c: char): (r: Option<(string, string)>)
    ensures r.None? <==> c !in s
    ensures r.Some? ==> s == r.value.0 + [c] + r.value.1 && c !in r.value.1
  {
    match LastIndex(s, c)
    case None => None
    case Some(k) =>
      assert s == s[..k] + [c] + s[k + 1..];
      Some((s[..k], s[k + 1..]))
  }

  lemma SplitLastOfJoin(a: string, c: char, b: string)
    requires c !in b
    ensures SplitLast(a + [c] + b, c) == Some((a, b))
  {
    var s := a + [c] + b;
    assert s[|a|] == c;
    assert s[..|a|] == a;
    assert s[|a| + 1..] == b;
  }

  predicate AllDigits(s: string) {
    forall i :: 0 <= i < |s| ==> IsDigit(s[i])
  }

  /**
   Reads an avatar path back, from the right: the extension is what follows
   the last dot and the time stamp is what lies between the last dash before
   it and that dot, so an owner id containing dashes is still recovered.
   */
  function ParseAvatarPath(path: string): Option<PathParts> {
    if |path| < |AvatarFolder| || path[..|AvatarFolder|] != AvatarFolder then None
    else ParseAvatarName(path[|AvatarFolder|..])
  }

  function ParseAvatarName(name: string): Option<PathParts> {
    match SplitLast(name, '.')
    case None => None
    case Some((head, ext)) =>
      match SplitLast(head, '-')
      case None => None
      case Some((owner, stamp)) =>
        if |stamp| > 0 && AllDigits(stamp) then Some(PathParts(owner, ParseDecimal(stamp), ext))
        else None
  }

  lemma DecimalHasNoDash(n: nat)
    ensures '-' !in Decimal(n)
  {
  }

  /**
   The name part round-trips: parsing `owner-stamp.ext` gives back the
   owner, the time stamp and the extension, whatever the owner contains.
   */
  lemma ParseAvatarNameRoundTrip(owner: string, stamp: nat, ext: string)
    requires '.' !in ext
    ensures ParseAvatarName(owner + ['-'] + Decimal(stamp) + ['.'] + ext) == Some(PathParts(owner, stamp, ext))
  {
    var digits := Decimal(stamp);
    SplitLastOfJoin(owner + ['-'] + digits, '.', ext);
    DecimalHasNoDash(stamp);
    SplitLastOfJoin(owner, '-', digits);
    DecimalRoundTrip(stamp);
  }

  /**
   The path an upload is written to determines the owner, the time of the
   upload and the file's extension.
   */
  lemma AvatarPathRoundTrip(userId: Option<string>, now: nat, fileName: string)
    ensures ParseAvatarPath(AvatarPath(userId, now, fileName))
         == Some(PathParts(IdText(userId), now, Extension(fileName)))
  {
    var id := IdText(userId);
    var ext := Extension(fileName);
    var name := id + ['-'] + Decimal(now) + ['.'] + ext;
    var path := AvatarPath(userId, now, fileName);
    assert path == AvatarFolder + name;
    assert path[|AvatarFolder|..] == name;
    ParseAvatarNameRoundTrip(id, now, ext);
  }

  // ---------------------------------------------------------------------------
  // Generated placeholder
  // ---------------------------------------------------------------------------

  const PlaceholderBase := "https://ui-avatars.com/api/?name="
  const ResidentColours := "&background=10b981&color=fff&size=200"
  const AdminColours := "&background=3b82f6&color=fff&size=200"

  /**
   The ui-avatars URL for a display name; `encode` stands for
   `encodeURIComponent`, which the model does not interpret.
   */
  function Placeholder(fullName: string, colours: string, encode: string -> string): (url: string)
    ensures |url| >= |PlaceholderBase| && url[..|PlaceholderBase|] == PlaceholderBase
  {
    PlaceholderBase + encode(fullName) + colours
  }
}

=== FILE: common.dfy ===
/**
 Small building blocks shared by every part of the portal model: optional
 values, provider results, JavaScript truthiness on strings, ASCII
 lower-casing, substring search and the decimal rendering of a number.
 */
module Common {

  datatype Option<+T> = None | Some(value: T)

  /** An error reported by the hosted backend; only its message is observable. */
  datatype ProviderError = ProviderError(message: string)

  /** The outcome of one call to the hosted backend. */
  datatype Result<+T> = Ok(value: T) | Err(error: ProviderError)

  /** JavaScript truthiness of an optional string: present and non-empty. */
  predicate Truthy(s: Option<string>) {
    s.Some? && s.value != ""
  }

  /** JavaScript `s || fallback` on an optional string. */
  function OrElse(s: Option<string>, fallback: string): (r: string)
    ensures Truthy(s) ==> r == s.value
    ensures !Truthy(s) ==> r == fallback
    ensures r == "" ==> fallback == ""
  {
    if Truthy(s) then s.value else fallback
  }

  // ---------------------------------------------------------------------------
  // Lower-casing (ASCII letters only)
  // ---------------------------------------------------------------------------

  function LowerChar(c: char): char {
    if 'A' <= c <= 'Z' then (c as int + 32) as char else c
  }

  /** `String.prototype.toLowerCase`, restricted to the ASCII letters. */
  function Lower(s: string): (r: string)
    ensures |r| == |s|
    ensures forall i :: 0 <= i < |s| ==> r[i] == LowerChar(s[i])
  {
    seq(|s|, i requires 0 <= i < |s| => LowerChar(s[i]))
  }

  // ---------------------------------------------------------------------------
  // Substring search
  // ---------------------------------------------------------------------------

  /** `t` occurs in `s` starting at position `i`. */
  ghost predicate OccursAt(s: string, t: string, i: int) {
    0 <= i && i + |t| <= |s| && s[i..i + |t|] == t
  }

  /** `String.prototype.includes`: `t` occurs somewhere in `s`. */
  function Includes(s: string, t: string): (r: bool)
    ensures r <==> exists i :: OccursAt(s, t, i)
    decreases |s|
  {
    if |t| > |s| then
      assert forall i :: !OccursAt(s, t, i);
      false
    else if s[..|t|] == t then
      assert OccursAt(s, t, 0);
      true
    else
      var rest := Includes(s[1..], t);
      assert rest ==> exists i :: OccursAt(s, t, i) by {
        if rest {
          var j :| OccursAt(s[1..], t, j);
          assert s[j + 1..j + 1 + |t|] == s[1..][j..j + |t|];
          assert OccursAt(s, t, j + 1);
        }
      }
      assert (exists i :: OccursAt(s, t, i)) ==> rest by {
        if exists i :: OccursAt(s, t, i) {
          var i :| OccursAt(s, t, i);
          assert i != 0;
          assert s[1..][i - 1..i - 1 + |t|] == s[i..i + |t|];
          assert OccursAt(s[1..], t, i - 1);
        }
      }
      rest
  }

  lemma EmptyIncluded(s: string)
    ensures Includes(s, "")
  {
    assert OccursAt(s, "", 0);
  }

  // ---------------------------------------------------------------------------
  // Decimal rendering of a non-negative integer (template-literal `${n}`)
  // ---------------------------------------------------------------------------

  predicate IsDigit(c: char) {
    '0' <= c <= '9'
  }

  function DigitChar(d: nat): (c: char)
    requires d < 10
    ensures IsDigit(c)
  {
    (48 + d) as char
  }

  function DigitValue(c: char): nat
    requires IsDigit(c)
  {
    c as int - 48
  }

  /** Decimal text of `n` without leading zeros. */
  function Decimal(n: nat): (r: string)
    ensures |r| >= 1
    ensures forall i :: 0 <= i < |r| ==> IsDigit(r[i])
    ensures |r| > 1 ==> r[0] != '0'
    decreases n
  {
    if n < 10 then [DigitChar(n)] else Decimal(n / 10) + [DigitChar(n % 10)]
  }

  /** Reads back a string of decimal digits. */
  function ParseDecimal(s: string): nat
    requires forall i :: 0 <= i < |s| ==> IsDigit(s[i])
  {
    if |s| == 0 then 0
    else 10 * ParseDecimal(s[..|s| - 1]) + DigitValue(s[|s| - 1])
  }

  lemma {:induction false} DecimalRoundTrip(n: nat)
    ensures ParseDecimal(Decimal(n)) == n
    decreases n
  {
    var r := Decimal(n);
    if n >= 10 {
      DecimalRoundTrip(n / 10);
      assert r[..|r| - 1] == Decimal(n / 10);
    }
  }
}

=== FILE: navigation.dfy ===
/**
 View routing of the portal (src/App.tsx, `AppContent`).

 The view is the current page identifier plus the selected complaint id. It
 changes on explicit navigation (unconditional) and through a redirect rule
 that runs whenever the watched triple (user, loading, isAdmin) of the
 session changes. What is shown is decided by a total resolution function
 from the page identifier and the session to exactly one screen.
 */
module Navigation {
  import opened Common
  import Session

  const LandingPage := "landing"
  const LoginPage := "login"
  const RegisterPage := "register"
  const DashboardPage := "dashboard"
  const AdminDashboardPage := "admin-dashboard"
  const ProfilePage := "profile"

  /** The pages a visitor without a session may be on. */
  predicate IsPublic(page: string) {
    page == LandingPage || page == LoginPage || page == RegisterPage
  }

  datatype View = View(page: string, complaintId: Option<string>)

  function InitView(): (v: View)
    ensures v.page == LandingPage && v.complaintId.None?
    ensures IsPublic(v.page)
  {
    View(LandingPage, None)
  }

  /** The dependencies of the redirect effect. */
  datatype Watch = Watch(user: Option<Session.User>, loading: bool, isAdmin: bool)

  function WatchOf(s: Session.State): (w: Watch)
    ensures w.user == s.user && w.loading == s.loading
    ensures w.isAdmin == Session.IsAdmin(s)
    ensures w.isAdmin ==> s.profile.Some?
  {
    Watch(s.user, s.loading, Session.IsAdmin(s))
  }

  /** The dashboard a signed-in user lands on. */
  function HomeOf(isAdmin: bool): (page: string)
    ensures isAdmin <==> page == AdminDashboardPage
    ensures !isAdmin ==> page == DashboardPage
    ensures !IsPublic(page) && page != ProfilePage
  {
    if isAdmin then AdminDashboardPage else DashboardPage
  }

  /**
   The redirect effect. While loading it does nothing. Settled with a user, a
   public page is replaced by the role's dashboard; settled without one, a
   gated page is replaced by the landing page. Every other page is kept, and
   the selected complaint is never touched.
   */
  function Redirect(v: View, w: Watch): (r: View)
    ensures r.complaintId == v.complaintId
    ensures w.loading ==> r == v
    ensures !w.loading && w.user.Some? ==> !IsPublic(r.page)
    ensures !w.loading && w.user.Some? && IsPublic(v.page) ==> r.page == HomeOf(w.isAdmin)
    ensures !w.loading && w.user.None? ==> IsPublic(r.page)
    ensures !w.loading && w.user.None? && !IsPublic(v.page) ==> r.page == LandingPage
    ensures (!w.loading && w.user.Some? && !IsPublic(v.page)) || (!w.loading && w.user.None? && IsPublic(v.page)) ==> r == v
  {
    if !w.loading && w.user.Some? then
      if IsPublic(v.page) then v.(page := HomeOf(w.isAdmin)) else v
    else if !w.loading && w.user.None? then
      if !IsPublic(v.page) then v.(page := LandingPage) else v
    else v
  }

  lemma RedirectIdempotent(v: View, w: Watch)
    ensures Redirect(Redirect(v, w), w) == Redirect(v, w)
  {
  }

  /**
   `handleNavigate`: the page is set unconditionally; the complaint id is
   replaced only by a truthy one (an absent or empty id keeps the old one).
   */
  function Navigate(v: View, page: string, complaintId: Option<string>): (r: View)
    ensures r.page == page
    ensures Truthy(complaintId) ==> r.complaintId == complaintId
    ensures !Truthy(complaintId) ==> r.complaintId == v.complaintId
  {
    View(page, if Truthy(complaintId) then complaintId else v.complaintId)
  }

  datatype Screen =
    | LoadingScreen
    | Landing
    | Login
    | Register
    | AdminProfile
    | UserProfile
    | AdminDashboard
    | UserDashboard

  predicate IsPublicScreen(sc: Screen) {
    sc == Landing || sc == Login || sc == Register
  }

  predicate IsAdminScreen(sc: Screen) {
    sc == AdminProfile || sc == AdminDashboard
  }

  predicate IsUserScreen(sc: Screen) {
    sc == UserProfile || sc == UserDashboard
  }

  /**
   The rendering cascade: loading first, then the public switch, then the
   role-dependent profile page, then the admin switch, then the user switch.
   Only the two dashboards are live cases of the role switches; every other
   identifier falls back to the role's dashboard.
   */
  function Resolve(page: string, w: Watch): (r: Screen)
    ensures r == LoadingScreen <==> w.loading
    ensures IsPublicScreen(r) <==> !w.loading && w.user.None?
    ensures !w.loading && w.user.None? ==>
      r == (if page == LoginPage then Login else if page == RegisterPage then Register else Landing)
    ensures !w.loading && w.user.Some? ==> (r == AdminProfile || r == UserProfile <==> page == ProfilePage)
    ensures !w.loading && w.user.Some? ==> (IsAdminScreen(r) <==> w.isAdmin)
    ensures !w.loading && w.user.Some? ==> (IsUserScreen(r) <==> !w.isAdmin)
  {
    if w.loading then LoadingScreen
    else if w.user.None? then
      if page == LoginPage then Login
      else if page == RegisterPage then Register
      else Landing
    else if page == ProfilePage then
      if w.isAdmin then AdminProfile else UserProfile
    else if w.isAdmin then AdminDashboard
    else UserDashboard
  }

  /**
   The redirect never changes what is on screen: it only rewrites the page
   identifier to one that resolves to the same screen.
   */
  lemma RedirectKeepsScreen(v: View, w: Watch)
    ensures Resolve(Redirect(v, w).page, w) == Resolve(v.page, w)
  {
  }

  /** An administrator asking for the resident dashboard gets the admin one. */
  lemma AdminAskingForUserDashboard(v: View, w: Watch)
    requires !w.loading && w.user.Some? && w.isAdmin
    ensures Resolve(Navigate(v, DashboardPage, None).page, w) == AdminDashboard
  {
  }

  /** A signed-out visitor asking for the profile page sees the landing page. */
  lemma SignedOutAskingForProfile(v: View, w: Watch)
    requires !w.loading && w.user.None?
    ensures Resolve(Navigate(v, ProfilePage, None).page, w) == Landing
  {
  }

  // ---------------------------------------------------------------------------
  // The session and the view together
  // ---------------------------------------------------------------------------

  datatype App = App(session: Session.State, view: View)

  datatype AppEvent =
    | Auth(e: Session.Event)
    | Go(page: string, complaintId: Option<string>)

  function AppInit(): App {
    App(Session.Init(), InitView())
  }

  /**
   A session event that hands over a user object: the probe or the stream
   with a session. React compares the effect's dependencies by identity, and
   every delivery is a new object, so such an event always re-runs the
   redirect even when the user is the same by value.
   */
  predicate DeliversUser(e: Session.Event) {
    (e.ProbeResolved? || e.AuthChanged?) && e.session.Some?
  }

  /**
   A session event, followed by the redirect effect when (and only when) the
   watched triple changed, a changed user being any newly delivered user
   object; or an explicit navigation, which the effect does not watch.
   */
  function AppStep(a: App, ev: AppEvent): (r: App)
    ensures ev.Auth? ==> r.session == Session.Step(a.session, ev.e)
    ensures ev.Auth? && (WatchOf(r.session) != WatchOf(a.session) || DeliversUser(ev.e)) ==>
      r.view == Redirect(a.view, WatchOf(r.session))
    ensures ev.Auth? && WatchOf(r.session) == WatchOf(a.session) && !DeliversUser(ev.e) ==> r.view == a.view
    ensures ev.Go? ==> r.session == a.session && r.view == Navigate(a.view, ev.page, ev.complaintId)
  {
    match ev
    case Auth(e) =>
      var s := Session.Step(a.session, e);
      var w := WatchOf(s);
      App(s, if w != WatchOf(a.session) || DeliversUser(e) then Redirect(a.view, w) else a.view)
    case Go(page, complaintId) =>
      App(a.session, Navigate(a.view, page, complaintId))
  }

  function AppRun(a: App, evs: seq<AppEvent>): App
    decreases |evs|
  {
    if |evs| == 0 then a else AppRun(AppStep(a, evs[0]), evs[1..])
  }

  /** What the user sees in app state `a`. */
  function Shown(a: App): Screen {
    Resolve(a.view.page, WatchOf(a.session))
  }

  /** Once settled, the page identifier belongs to the class the session allows. */
  ghost predicate Agrees(a: App) {
    !a.session.loading ==> (a.session.user.None? <==> IsPublic(a.view.page))
  }

  lemma AppStepAgrees(a: App, e: Session.Event)
    requires Agrees(a)
    ensures Agrees(AppStep(a, Auth(e)))
  {
  }

  /**
   As long as the user does not navigate, session events keep the page
   identifier in agreement with the session: the redirect rule alone
   maintains the invariant from the initial state on.
   */
  lemma {:induction false} SessionTracesAgree(a: App, evs: seq<AppEvent>)
    requires Agrees(a)
    requires forall i :: 0 <= i < |evs| ==> evs[i].Auth?
    ensures Agrees(AppRun(a, evs))
    decreases |evs|
  {
    if |evs| > 0 {
      AppStepAgrees(a, evs[0].e);
      SessionTracesAgree(AppStep(a, evs[0]), evs[1..]);
    }
  }

  lemma InitAgrees()
    ensures Agrees(AppInit())
    ensures Shown(AppInit()) == LoadingScreen
  {
  }

  /**
   Navigation is not checked: a settled, signed-out visitor who asks for the
   dashboard keeps that identifier (the effect does not watch the page), yet
   the landing page is what is shown.
   */
  lemma NavigationIsNotChecked(a: App)
    requires !a.session.loading && a.session.user.None?
    ensures var r := AppStep(a, Go(DashboardPage, None));
            !Agrees(r) && r.view.page == DashboardPage && Shown(r) == Landing
  {
  }

  /**
   Signing out of a settled session lands on the landing page, from any page
   a signed-in user could be on.
   */
  lemma SignOutLandsOnLanding(a: App)
    requires !a.session.loading && a.session.user.Some? && !IsPublic(a.view.page)
    ensures var r := AppStep(a, Auth(Session.SignedOut));
            r.view.page == LandingPage && Shown(r) == Landing
  {
  }

  /**
   The stream delivering the same user again re-runs the redirect: a
   settled resident who navigated to the login page is sent back to the
   dashboard, and a sign-out after that shows the landing page.
   */
  lemma SameUserAgainRedirects(a: App, u: Session.User)
    requires !a.session.loading && a.session.user == Some(u) && !Session.IsAdmin(a.session)
    ensures var b := AppStep(AppStep(a, Go(LoginPage, None)), Auth(Session.AuthChanged(Some(u))));
            && b.view.page == DashboardPage && Shown(b) == UserDashboard
            && Shown(AppStep(b, Auth(Session.SignedOut))) == Landing
  {
  }
}

=== FILE: profile_form.dfy ===
/**
 The profile edit form both profile pages share (src/pages/ProfilePage.tsx
 and src/pages/AdminProfilePage.tsx): the editing flag, the edited values,
 the chosen image and its preview, and the busy/success/error indicators;
 and the save pipeline both pages run.

 Save performs backend calls in a fixed order. The model records the calls
 it makes as a sequence of effects, and takes each call's outcome as a
 parameter.
 */
module ProfileForm {
  import opened Common
  import Avatar

  datatype Form<D> = Form(
    editing: bool,
    data: D,
    imageFile: Option<Avatar.FileRef>,
    preview: Option<string>,
    loading: bool,
    success: string,
    error: string)

  /** A backend call made while saving. */
  datatype Effect =
    | Upload(path: string)
    | UpdateRow(userId: Option<string>, phone: string, avatarUrl: string)
    | UpdateEmail(email: string)
    | Refresh

  datatype Saved<D> = Saved(form: Form<D>, effects: seq<Effect>)

  const SavedMessage := "Profil berhasil diperbarui!"
  const UploadFailedMessage := "Gagal mengupload foto profil"
  const SaveFailedMessage := "Gagal memperbarui profil. Silakan coba lagi."

  /** The file picker changed (`handleImageChange`), through the shared size gate. */
  function ChooseImage<D>(f: Form<D>, chosen: Option<Avatar.FileRef>): (r: Form<D>)
    ensures chosen.None? ==> r == f
    ensures chosen.Some? && chosen.value.size > Avatar.MaxAvatarBytes ==>
      r == f.(error := Avatar.TooLargeMessage)
    ensures chosen.Some? && chosen.value.size <= Avatar.MaxAvatarBytes ==>
      r == f.(imageFile := chosen, error := "")
  {
    var p := Avatar.ChooseImage(Avatar.Pick(f.imageFile, f.error), chosen);
    f.(imageFile := p.imageFile, error := p.error)
  }

  /** The error text a failed step leaves: the error's message, or the generic one. */
  function FailureText(message: string): (r: string)
    ensures r != ""
    ensures message != "" ==> r == message
  {
    OrElse(Some(message), SaveFailedMessage)
  }

  function Fail<D>(g: Form<D>, message: string, effects: seq<Effect>): (r: Saved<D>)
    ensures r.effects == effects && r.form.error != "" && !r.form.loading
  {
    Saved(g.(error := FailureText(message), loading := false), effects)
  }

  function Succeed<D>(g: Form<D>, effects: seq<Effect>): (r: Saved<D>)
    ensures r.effects == effects + [Refresh] && !r.form.loading && !r.form.editing
  {
    Saved(g.(success := SavedMessage, editing := false, preview := None, imageFile := None, loading := false),
          effects + [Refresh])
  }

  /** The save ended by asking the session for a fresh profile. */
  predicate Refreshed(es: seq<Effect>) {
    |es| > 0 && es[|es| - 1] == Refresh
  }

  /** Every e-mail update directly follows a row update, and is the requested change. */
  predicate EmailAfterRow(es: seq<Effect>, emailChange: Option<string>) {
    forall i :: 0 <= i < |es| && es[i].UpdateEmail? ==> 0 < i && es[i - 1].UpdateRow? && emailChange == Some(es[i].email)
  }

  /** The save steps from the row update on, once the avatar URL is known. */
  function WriteRow<D>(g: Form<D>, userId: Option<string>, phone: string, avatarUrl: string,
                       emailChange: Option<string>, rowError: Option<ProviderError>,
                       emailError: Option<ProviderError>, done: seq<Effect>): (r: Saved<D>)
    requires forall i :: 0 <= i < |done| ==> done[i].Upload?
    ensures !r.form.loading && r.form.data == g.data
    ensures |r.effects| > |done|
    ensures forall i :: 0 <= i < |done| ==> r.effects[i] == done[i]
    ensures r.effects[|done|] == UpdateRow(userId, phone, avatarUrl)
    ensures r.effects == done + [UpdateRow(userId, phone, avatarUrl)]
      + (if rowError.None? && emailChange.Some? then [UpdateEmail(emailChange.value)] else [])
      + (if rowError.None? && (emailChange.Some? ==> emailError.None?) then [Refresh] else [])
    ensures EmailAfterRow(r.effects, emailChange)
    ensures rowError.None? && emailChange.Some? ==>
      |r.effects| > |done| + 1 && r.effects[|done| + 1] == UpdateEmail(emailChange.value)
    ensures emailError.Some? && emailChange.Some? && rowError.None? ==> r.form.error == FailureText(emailError.value.message)
    ensures rowError.Some? ==> r.form.error == FailureText(rowError.value.message) && |r.effects| == |done| + 1
    ensures (rowError.None? && (emailChange.Some? ==> emailError.None?)) <==> Refreshed(r.effects)
    ensures Refreshed(r.effects) ==>
      && r.form.success == SavedMessage && r.form.error == g.error && !r.form.editing
      && r.form.preview.None? && r.form.imageFile.None?
    ensures !Refreshed(r.effects) ==>
      && r.form.success == g.success && r.form.editing == g.editing
      && r.form.preview == g.preview && r.form.imageFile == g.imageFile && r.form.error != ""
  {
    var afterRow := done + [UpdateRow(userId, phone, avatarUrl)];
    if rowError.Some? then Fail(g, rowError.value.message, afterRow)
    else if emailChange.Some? then
      var afterEmail := afterRow + [UpdateEmail(emailChange.value)];
      if emailError.Some? then Fail(g, emailError.value.message, afterEmail)
      else Succeed(g, afterEmail)
    else Succeed(g, afterRow)
  }

  /** Did the save get past the upload step? */
  predicate UploadOk<D>(f: Form<D>, uploaded: Option<string>) {
    f.imageFile.None? || Truthy(uploaded)
  }

  /** Did every step of the save succeed? */
  predicate AllOk<D>(f: Form<D>, uploaded: Option<string>, emailChange: Option<string>,
                     rowError: Option<ProviderError>, emailError: Option<ProviderError>) {
    UploadOk(f, uploaded) && rowError.None? && (emailChange.Some? ==> emailError.None?)
  }

  /**
   The calls a save makes, laid out step by step: the upload when an image
   was chosen; the row update once the upload (if any) gave a URL; the
   e-mail update once the row was written and a change is requested; the
   refresh once every step succeeded.
   */
  function SaveEffects<D>(f: Form<D>, userId: Option<string>, uploadPath: string, phone: string, avatarUrl: string,
                          emailChange: Option<string>, uploaded: Option<string>,
                          rowError: Option<ProviderError>, emailError: Option<ProviderError>): seq<Effect> {
    (if f.imageFile.Some? then [Upload(uploadPath)] else [])
    + (if UploadOk(f, uploaded) then [UpdateRow(userId, phone, if f.imageFile.Some? then uploaded.value else avatarUrl)] else [])
    + (if UploadOk(f, uploaded) && rowError.None? && emailChange.Some? then [UpdateEmail(emailChange.value)] else [])
    + (if AllOk(f, uploaded, emailChange, rowError, emailError) then [Refresh] else [])
  }

  /**
   The storage path `uploadAvatar` writes the chosen image to. It is only
   used when an image was chosen.
   */
  function UploadPath<D>(f: Form<D>, userId: Option<string>, now: nat): string {
    match f.imageFile
    case Some(file) => Avatar.AvatarPath(userId, now, file.name)
    case None => ""
  }

  /**
   What `handleSave` promises, given the path the upload is written to. With a chosen image the upload runs first; a
   failed upload (no URL, or an empty one) stops the save before the row is
   touched. The row gets the edited phone and either the uploaded URL or the
   edited avatar URL. When `emailChange` is present the e-mail update runs
   after the row update, so its failure leaves the row written. Success ends
   with a profile refresh and leaves editing with no image or preview; every
   path ends not loading.
   */
  ghost predicate SaveOutcome<D>(f: Form<D>, userId: Option<string>, uploadPath: string, phone: string, avatarUrl: string,
                                 emailChange: Option<string>, uploaded: Option<string>,
                                 rowError: Option<ProviderError>, emailError: Option<ProviderError>, r: Saved<D>) {
    && !r.form.loading && r.form.data == f.data
    // exactly these calls, in this order
    && r.effects == SaveEffects(f, userId, uploadPath, phone, avatarUrl, emailChange, uploaded, rowError, emailError)
    // the upload comes first, and only when an image was chosen
    && (f.imageFile.Some? ==> |r.effects| > 0 && r.effects[0] == Upload(uploadPath))
    && (!UploadOk(f, uploaded) ==> |r.effects| == 1 && r.form.error == UploadFailedMessage)
    // the row gets the uploaded URL, or the edited one when no image was chosen
    && (f.imageFile.None? ==>
          |r.effects| > 0 && r.effects[0] == UpdateRow(userId, phone, avatarUrl))
    && (f.imageFile.Some? && UploadOk(f, uploaded) ==>
          |r.effects| > 1 && r.effects[1] == UpdateRow(userId, phone, uploaded.value))
    && EmailAfterRow(r.effects, emailChange)
    // the e-mail update directly follows the row whenever the row was written and a change is requested
    && (f.imageFile.None? && rowError.None? && emailChange.Some? ==>
          |r.effects| > 1 && r.effects[1] == UpdateEmail(emailChange.value))
    && (f.imageFile.Some? && UploadOk(f, uploaded) && rowError.None? && emailChange.Some? ==>
          |r.effects| > 2 && r.effects[2] == UpdateEmail(emailChange.value))
    // the outcome
    && (UploadOk(f, uploaded) && rowError.Some? ==> r.form.error == FailureText(rowError.value.message))
    && (UploadOk(f, uploaded) && rowError.None? && emailChange.Some? && emailError.Some? ==>
          r.form.error == FailureText(emailError.value.message))
    && (r.form.error == "" <==> AllOk(f, uploaded, emailChange, rowError, emailError))
    && (AllOk(f, uploaded, emailChange, rowError, emailError) ==>
          && r.form.success == SavedMessage && !r.form.editing
          && r.form.preview.None? && r.form.imageFile.None?)
    && (Refreshed(r.effects) <==> AllOk(f, uploaded, emailChange, rowError, emailError))
    && (!AllOk(f, uploaded, emailChange, rowError, emailError) ==>
          && r.form.success == "" && r.form.editing == f.editing
          && r.form.preview == f.preview && r.form.imageFile == f.imageFile)
  }

  /** The form as `handleSave` first sets it: busy, with both messages cleared. */
  function Started<D>(f: Form<D>): (g: Form<D>)
    ensures g.loading && g.error == "" && g.success == ""
    ensures g.data == f.data && g.editing == f.editing && g.preview == f.preview && g.imageFile == f.imageFile
  {
    f.(loading := true, error := "", success := "")
  }

  /** `handleSave` with no image chosen: straight to the row update. */
  function SaveWithoutImage<D>(f: Form<D>, userId: Option<string>, uploadPath: string, phone: string, avatarUrl: string,
                               emailChange: Option<string>, uploaded: Option<string>,
                               rowError: Option<ProviderError>, emailError: Option<ProviderError>): (r: Saved<D>)
    requires f.imageFile.None?
    ensures SaveOutcome(f, userId, uploadPath, phone, avatarUrl, emailChange, uploaded, rowError, emailError, r)
  {
    WriteRow(Started(f), userId, phone, avatarUrl, emailChange, rowError, emailError, [])
  }

  /** `handleSave` when the upload gave no URL: the save stops before the row. */
  function UploadFailed<D>(f: Form<D>, userId: Option<string>, uploadPath: string, phone: string, avatarUrl: string,
                           emailChange: Option<string>, uploaded: Option<string>,
                           rowError: Option<ProviderError>, emailError: Option<ProviderError>): (r: Saved<D>)
    requires f.imageFile.Some? && !Truthy(uploaded)
    ensures SaveOutcome(f, userId, uploadPath, phone, avatarUrl, emailChange, uploaded, rowError, emailError, r)
  {
    Fail(Started(f), UploadFailedMessage, [Upload(uploadPath)])
  }

  /** `handleSave` when the upload gave a URL: the row update follows with that URL. */
  function Uploaded<D>(f: Form<D>, userId: Option<string>, uploadPath: string, phone: string, avatarUrl: string,
                       emailChange: Option<string>, uploaded: Option<string>,
                       rowError: Option<ProviderError>, emailError: Option<ProviderError>): (r: Saved<D>)
    requires f.imageFile.Some? && Truthy(uploaded)
    ensures SaveOutcome(f, userId, uploadPath, phone, avatarUrl, emailChange, uploaded, rowError, emailError, r)
  {
    var done := [Upload(uploadPath)];
    WriteRow(Started(f), userId, phone, uploaded.value, emailChange, rowError, emailError, done)
  }

  /** `handleSave`. */
  function Save<D>(f: Form<D>, userId: Option<string>, uploadPath: string, phone: string, avatarUrl: string,
                   emailChange: Option<string>, uploaded: Option<string>,
                   rowError: Option<ProviderError>, emailError: Option<ProviderError>): (r: Saved<D>)
    ensures SaveOutcome(f, userId, uploadPath, phone, avatarUrl, emailChange, uploaded, rowError, emailError, r)
  {
    if f.imageFile.Some? && !Truthy(uploaded) then
      UploadFailed(f, userId, uploadPath, phone, avatarUrl, emailChange, uploaded, rowError, emailError)
    else if f.imageFile.Some? then
      Uploaded(f, userId, uploadPath, phone, avatarUrl, emailChange, uploaded, rowError, emailError)
    else SaveWithoutImage(f, userId, uploadPath, phone, avatarUrl, emailChange, uploaded, rowError, emailError)
  }

  /**
   `handleCancel`, given the values the page restores: editing stops, the
   image and preview are dropped and the error is cleared; the busy flag and
   the success text are left as they were.
   */
  function Cancel<D>(f: Form<D>, restored: D): (r: Form<D>)
    ensures r.data == restored
    ensures !r.editing && r.imageFile.None? && r.preview.None? && r.error == ""
    ensures r.loading == f.loading && r.success == f.success
  {
    f.(data := restored, preview := None, imageFile := None, editing := false, error := "")
  }
}

=== FILE: residents.dfy ===
/**
 The administrator's list of residents (src/pages/ResidentsPage.tsx): the
 fetched list with generated avatars filled in, and the search and sort
 that produce the list on screen. Search always starts again from the full
 list; sort reorders whatever is on screen.
 */
module Residents {
  import opened Common
  import Avatar

  /** A resident row of the `users` table. */
  datatype Resident = Resident(
    id: string,
    email: string,
    fullName: string,
    nik: string,
    address: string,
    phone: Option<string>,
    avatarUrl: Option<string>,
    role: string,
    createdAt: string)

  datatype View = View(
    residents: seq<Resident>,
    filtered: seq<Resident>,
    searchTerm: string,
    sortBy: string,
    loading: bool)

  function InitialView(): View {
    View([], [], "", "name", true)
  }

  /**
   The first load: every fetched resident is on screen, with an avatar,
   sorted by nothing yet but with "name" selected, and no search term.
   */
  lemma FirstLoadShowsEveryone(rows: seq<Resident>, encode: string -> string)
    ensures var v := Loaded(InitialView(), Ok(rows), encode);
            && !v.loading && v.searchTerm == "" && v.sortBy == ByName
            && v.filtered == v.residents && |v.filtered| == |rows|
            && forall i :: 0 <= i < |v.filtered| ==> Truthy(v.filtered[i].avatarUrl)
  {
  }

  /** A failed first load leaves the page with nothing to show. */
  lemma FailedFirstLoadShowsNothing(e: ProviderError, encode: string -> string)
    ensures var v := Loaded(InitialView(), Err(e), encode);
            !v.loading && v.residents == [] && v.filtered == []
  {
  }

  // ---------------------------------------------------------------------------
  // Avatar defaulting
  // ---------------------------------------------------------------------------

  function WithAvatar(r: Resident, encode: string -> string): Resident {
    r.(avatarUrl := Some(OrElse(r.avatarUrl, Avatar.Placeholder(r.fullName, Avatar.ResidentColours, encode))))
  }

  /**
   Every resident keeps a non-empty avatar URL and otherwise gets the
   generated one; nothing else about the list changes.
   */
  function DefaultAvatars(rs: seq<Resident>, encode: string -> string): (out: seq<Resident>)
    ensures |out| == |rs|
    ensures forall i :: 0 <= i < |rs| ==> out[i] == rs[i].(avatarUrl := out[i].avatarUrl)
    ensures forall i :: 0 <= i < |rs| && Truthy(rs[i].avatarUrl) ==> out[i] == rs[i]
    ensures forall i :: 0 <= i < |rs| && !Truthy(rs[i].avatarUrl) ==>
      out[i].avatarUrl == Some(Avatar.Placeholder(rs[i].fullName, Avatar.ResidentColours, encode))
    ensures forall i :: 0 <= i < |rs| ==> Truthy(out[i].avatarUrl)
  {
    seq(|rs|, i requires 0 <= i < |rs| => WithAvatar(rs[i], encode))
  }

  /** Filling in avatars a second time changes nothing. */
  lemma DefaultAvatarsIdempotent(rs: seq<Resident>, encode: string -> string)
    ensures DefaultAvatars(DefaultAvatars(rs, encode), encode) == DefaultAvatars(rs, encode)
  {
    var once := DefaultAvatars(rs, encode);
    var twice := DefaultAvatars(once, encode);
    assert forall i :: 0 <= i < |rs| ==> twice[i] == once[i];
  }

  /**
   `fetchResidents`: a successful query replaces both lists with the rows,
   avatars filled in; a failed one leaves them. Loading ends either way.
   */
  function Loaded(v: View, rows: Result<seq<Resident>>, encode: string -> string): (r: View)
    ensures !r.loading && r.searchTerm == v.searchTerm && r.sortBy == v.sortBy
    ensures rows.Ok? ==> r.residents == DefaultAvatars(rows.value, encode) && r.filtered == r.residents
    ensures rows.Err? ==> r.residents == v.residents && r.filtered == v.filtered
  {
    match rows
    case Ok(data) =>
      var withAvatars := DefaultAvatars(data, encode);
      v.(residents := withAvatars, filtered := withAvatars, loading := false)
    case Err(_) => v.(loading := false)
  }

  // ---------------------------------------------------------------------------
  // Search
  // ---------------------------------------------------------------------------

  /**
   The search criterion: the lower-cased name contains the lower-cased term,
   or the NIK contains the term, or a non-empty phone contains it.
   */
  function Matches(r: Resident, term: string): (b: bool)
    ensures term == "" ==> b
    ensures Includes(r.nik, term) ==> b
  {
    EmptyIncluded(Lower(r.fullName));
    || Includes(Lower(r.fullName), Lower(term))
    || Includes(r.nik, term)
    || (Truthy(r.phone) && Includes(r.phone.value, term))
  }

  /** The residents that match, in their original order. */
  function Filter(rs: seq<Resident>, term: string): (out: seq<Resident>)
    ensures forall x :: x in out <==> x in rs && Matches(x, term)
    ensures |out| <= |rs|
    decreases |rs|
  {
    if |rs| == 0 then []
    else
      var rest := Filter(rs[1..], term);
      assert forall x :: x in rs <==> x == rs[0] || x in rs[1..] by {
        assert rs == [rs[0]] + rs[1..];
      }
      if Matches(rs[0], term) then [rs[0]] + rest else rest
  }

  /** Filtering keeps the order: it distributes over concatenation. */
  lemma {:induction false} FilterAppend(a: seq<Resident>, b: seq<Resident>, term: string)
    ensures Filter(a + b, term) == Filter(a, term) + Filter(b, term)
    decreases |a|
  {
    if |a| > 0 {
      assert (a + b)[1..] == a[1..] + b;
      FilterAppend(a[1..], b, term);
    } else {
      assert a + b == b;
    }
  }

  /** The empty term matches every resident, so the early return agrees with filtering. */
  lemma {:induction false} EmptyTermKeepsAll(rs: seq<Resident>)
    ensures Filter(rs, "") == rs
    decreases |rs|
  {
    if |rs| > 0 {
      EmptyTermKeepsAll(rs[1..]);
      assert Filter(rs, "") == [rs[0]] + Filter(rs[1..], "");
      assert [rs[0]] + rs[1..] == rs;
    }
  }

  /** `handleSearch`: the term is recorded and the full list filtered by it. */
  function Search(v: View, term: string): (r: View)
    ensures r.searchTerm == term
    ensures r.residents == v.residents && r.sortBy == v.sortBy && r.loading == v.loading
    ensures term == "" ==> r.filtered == v.residents
    ensures r.filtered == Filter(v.residents, term)
  {
    if term == "" then
      EmptyTermKeepsAll(v.residents);
      v.(searchTerm := term, filtered := v.residents)
    else v.(searchTerm := term, filtered := Filter(v.residents, term))
  }

  /** A search ignores every earlier search and sort: only the full list matters. */
  lemma SearchForgetsHistory(v: View, w: View, term: string)
    requires v.residents == w.residents
    ensures Search(v, term).filtered == Search(w, term).filtered
  {
  }

  // ---------------------------------------------------------------------------
  // Sort
  // ---------------------------------------------------------------------------

  /** `cmp` read as "a may come before b" is total and transitive. */
  ghost predicate TotalPreorder<T(!new)>(cmp: (T, T) -> int) {
    && (forall a, b :: cmp(a, b) <= 0 || cmp(b, a) <= 0)
    && (forall a, b, c :: cmp(a, b) <= 0 && cmp(b, c) <= 0 ==> cmp(a, c) <= 0)
  }

  ghost predicate SortedBy<T>(s: seq<T>, cmp: (T, T) -> int) {
    forall i, j :: 0 <= i < j < |s| ==> cmp(s[i], s[j]) <= 0
  }

  /** Puts `x` before the first element it may precede. */
  function Insert<T>(x: T, s: seq<T>, cmp: (T, T) -> int): (r: seq<T>)
    ensures multiset(r) == multiset(s) + multiset{x}
    decreases |s|
  {
    if |s| == 0 then [x]
    else if cmp(x, s[0]) <= 0 then [x] + s
    else
      assert s == [s[0]] + s[1..];
      [s[0]] + Insert(x, s[1..], cmp)
  }

  /**
   The stable sort of `Array.prototype.sort`, as an insertion sort that puts
   an element ahead of those it compares equal to when it came first.
   */
  function SortStable<T>(s: seq<T>, cmp: (T, T) -> int): (r: seq<T>)
    ensures multiset(r) == multiset(s)
    decreases |s|
  {
    if |s| == 0 then []
    else
      assert s == [s[0]] + s[1..];
      Insert(s[0], SortStable(s[1..], cmp), cmp)
  }

  /** A head that may precede every element of a sorted tail keeps the list sorted. */
  lemma ConsSorted<T>(h: T, t: seq<T>, cmp: (T, T) -> int)
    requires SortedBy(t, cmp)
    requires forall k :: 0 <= k < |t| ==> cmp(h, t[k]) <= 0
    ensures SortedBy([h] + t, cmp)
  {
    var r := [h] + t;
    forall i, j | 0 <= i < j < |r|
      ensures cmp(r[i], r[j]) <= 0
    {
      assert r[j] == t[j - 1];
      if i > 0 {
        assert r[i] == t[i - 1];
      }
    }
  }

  /** Every element of `Insert(x, s)` is `x` or an element of `s`. */
  lemma InsertElements<T>(x: T, s: seq<T>, cmp: (T, T) -> int, k: nat)
    requires k < |Insert(x, s, cmp)|
    ensures var y := Insert(x, s, cmp)[k]; y == x || y in s
  {
    var r := Insert(x, s, cmp);
    assert r[k] in multiset(r);
  }

  lemma {:induction false} InsertSorted<T(!new)>(x: T, s: seq<T>, cmp: (T, T) -> int)
    requires TotalPreorder(cmp) && SortedBy(s, cmp)
    ensures SortedBy(Insert(x, s, cmp), cmp)
    decreases |s|
  {
    if |s| == 0 {
    } else if cmp(x, s[0]) <= 0 {
      forall k | 0 <= k < |s|
        ensures cmp(x, s[k]) <= 0
      {
        if k > 0 {
          assert cmp(s[0], s[k]) <= 0;
        }
      }
      ConsSorted(x, s, cmp);
    } else {
      assert cmp(s[0], x) <= 0;
      var tail := Insert(x, s[1..], cmp);
      InsertSorted(x, s[1..], cmp);
      forall k | 0 <= k < |tail|
        ensures cmp(s[0], tail[k]) <= 0
      {
        InsertElements(x, s[1..], cmp, k);
        if tail[k] != x {
          var m :| 0 <= m < |s[1..]| && s[1..][m] == tail[k];
          assert s[m + 1] == tail[k];
        }
      }
      ConsSorted(s[0], tail, cmp);
    }
  }

  /** With a total preorder, the result is in order. */
  lemma {:induction false} SortStableSorted<T(!new)>(s: seq<T>, cmp: (T, T) -> int)
    requires TotalPreorder(cmp)
    ensures SortedBy(SortStable(s, cmp), cmp)
    decreases |s|
  {
    if |s| > 0 {
      SortStableSorted(s[1..], cmp);
      InsertSorted(s[0], SortStable(s[1..], cmp), cmp);
    }
  }

  /** A comparator that calls everything equal leaves the order as it was. */
  lemma {:induction false} AllEqualKeepsOrder<T>(s: seq<T>, cmp: (T, T) -> int)
    requires forall a, b :: cmp(a, b) == 0
    ensures SortStable(s, cmp) == s
    decreases |s|
  {
    if |s| > 0 {
      AllEqualKeepsOrder(s[1..], cmp);
      assert s == [s[0]] + s[1..];
    }
  }

  const ByName := "name"
  const ByNewest := "newest"

  /**
   The comparator for a sort key: `collate` stands for `localeCompare` on
   full names and `timeOf` for the timestamp of a creation date; any other
   key compares everything as equal.
   */
  function Comparator(key: string, collate: (string, string) -> int, timeOf: string -> int): (cmp: (Resident, Resident) -> int)
    ensures key == ByName ==> forall a, b :: cmp(a, b) == collate(a.fullName, b.fullName)
    ensures key == ByNewest ==> forall a, b :: cmp(a, b) < 0 <==> timeOf(a.createdAt) > timeOf(b.createdAt)
    ensures key != ByName && key != ByNewest ==> forall a, b :: cmp(a, b) == 0
  {
    if key == ByName then (a: Resident, b: Resident) => collate(a.fullName, b.fullName)
    else if key == ByNewest then (a: Resident, b: Resident) => timeOf(b.createdAt) - timeOf(a.createdAt)
    else (a: Resident, b: Resident) => 0
  }

  /** `handleSort`: the list on screen is reordered; the full list is untouched. */
  function SortView(v: View, key: string, collate: (string, string) -> int, timeOf: string -> int): (r: View)
    ensures r.sortBy == key
    ensures multiset(r.filtered) == multiset(v.filtered)
    ensures r.residents == v.residents && r.searchTerm == v.searchTerm && r.loading == v.loading
  {
    v.(sortBy := key, filtered := SortStable(v.filtered, Comparator(key, collate, timeOf)))
  }

  /** An unrecognised key leaves the list on screen exactly as it was. */
  lemma UnknownKeyKeepsOrder(v: View, key: string, collate: (string, string) -> int, timeOf: string -> int)
    requires key != ByName && key != ByNewest
    ensures SortView(v, key, collate, timeOf).filtered == v.filtered
  {
    AllEqualKeepsOrder(v.filtered, Comparator(key, collate, timeOf));
  }

  /** Sorting by "newest" puts later creation times first. */
  lemma NewestFirst(v: View, collate: (string, string) -> int, timeOf: string -> int)
    ensures var r := SortView(v, ByNewest, collate, timeOf).filtered;
            forall i, j :: 0 <= i < j < |r| ==> timeOf(r[i].createdAt) >= timeOf(r[j].createdAt)
  {
    var cmp := Comparator(ByNewest, collate, timeOf);
    SortStableSorted(v.filtered, cmp);
  }

  /** Sorting by name follows the collation, whenever the collation is a total preorder. */
  lemma ByNameInOrder(v: View, collate: (string, string) -> int, timeOf: string -> int)
    requires TotalPreorder(collate)
    ensures var r := SortView(v, ByName, collate, timeOf).filtered;
            forall i, j :: 0 <= i < j < |r| ==> collate(r[i].fullName, r[j].fullName) <= 0
  {
    var cmp := Comparator(ByName, collate, timeOf);
    assert TotalPreorder(cmp) by {
      assert forall a: Resident, b: Resident :: cmp(a, b) == collate(a.fullName, b.fullName);
    }
    SortStableSorted(v.filtered, cmp);
  }
}

=== FILE: session.dfy ===
/**
 The authentication session of the portal (src/contexts/AuthContext.tsx).

 The provider component holds the triple (user, profile, loading). It changes
 only in response to events: the one-shot session probe resolving, the
 auth-change stream firing, a profile fetch completing, and the operations
 signIn, signUp, signOut and refreshProfile. Every asynchronous completion is
 an event of its own in one sequential trace, and every backend answer is a
 parameter of the event that delivers it.

 Profile fetches that have been started but have not completed are kept in
 `pending`, in the order they were started. The source keeps them only as
 promises; the model needs them to say which completion belongs to which
 request. There is no stale-response guard: a completing fetch stores its
 record whatever the current user is.
 */
module Session {
  import opened Common

  /** The identity handed out by the authentication provider. */
  datatype User = User(id: string, email: Option<string>)

  /** `user?.id`: the signed-in user's id, absent without a user. */
  function UserId(user: Option<User>): (id: Option<string>)
    ensures id.Some? <==> user.Some?
    ensures id.Some? ==> id.value == user.value.id
  {
    match user
    case Some(u) => Some(u.id)
    case None => None
  }

  /** A row of the `users` table (the application profile). */
  datatype Profile = Profile(
    id: string,
    email: string,
    fullName: string,
    nik: string,
    address: string,
    phone: Option<string>,
    role: string,
    avatarUrl: Option<string>)

  /** The row `signUp` inserts into the `users` table. */
  datatype ProfileRow = ProfileRow(
    id: string,
    email: string,
    fullName: string,
    nik: string,
    address: string,
    phone: string,
    role: string)

  datatype SignUpData = SignUpData(
    email: string,
    password: string,
    fullName: string,
    nik: string,
    address: string,
    phone: Option<string>)

  datatype State = State(
    user: Option<User>,
    profile: Option<Profile>,
    loading: bool,
    pending: seq<string>)

  const AdminRole := "admin"
  const DefaultRole := "user"
  const UserCreationFailed := "User creation failed"

  /** The state the provider mounts with. */
  function Init(): (s: State)
    ensures s.user.None? && s.profile.None? && s.loading
    ensures s.pending == []
  {
    State(None, None, true, [])
  }

  /**
   `isAdmin`: the stored profile exists and its role is exactly "admin". It is
   false whenever the profile is absent, whatever the user.
   */
  function IsAdmin(s: State): (r: bool)
    ensures r ==> s.profile.Some?
    ensures s.profile.Some? ==> (r <==> s.profile.value.role == AdminRole)
  {
    s.profile.Some? && s.profile.value.role == AdminRole
  }

  /** `fetchProfile(userId)` has been called: one more request is in flight. */
  function StartFetch(s: State, userId: string): (r: State)
    ensures r.pending == s.pending + [userId]
    ensures r.user == s.user && r.profile == s.profile && r.loading == s.loading
  {
    s.(pending := s.pending + [userId])
  }

  /** The `getSession()` probe resolved with `session` (its user, if any). */
  function OnProbe(s: State, session: Option<User>): (r: State)
    ensures r.user == session
    ensures r.profile == s.profile
    ensures session.None? ==> !r.loading && r.pending == s.pending
    ensures session.Some? ==> r.loading == s.loading && r.pending == s.pending + [session.value.id]
  {
    match session
    case None => s.(user := None, loading := false)
    case Some(u) => StartFetch(s.(user := session), u.id)
  }

  /** The `onAuthStateChange` listener fired with `session`. */
  function OnAuthChange(s: State, session: Option<User>): (r: State)
    ensures r.user == session
    ensures session.None? ==> r.profile.None? && !r.loading && r.pending == s.pending
    ensures session.Some? ==>
      r.profile == s.profile && r.loading == s.loading && r.pending == s.pending + [session.value.id]
  {
    match session
    case None => s.(user := None, profile := None, loading := false)
    case Some(u) => StartFetch(s.(user := session), u.id)
  }

  /** Removes the element at `k`, keeping the order of the others. */
  function RemoveAt(xs: seq<string>, k: nat): (r: seq<string>)
    requires k < |xs|
    ensures |r| == |xs| - 1
    ensures forall i :: 0 <= i < k ==> r[i] == xs[i]
    ensures forall i :: k <= i < |r| ==> r[i] == xs[i + 1]
  {
    xs[..k] + xs[k + 1..]
  }

  /**
   The in-flight fetch number `slot` completed with `outcome`. Success stores
   the record as it came back; failure keeps the previous profile; `loading`
   is false afterwards either way. The current user is not consulted.
   */
  function OnFetched(s: State, slot: nat, outcome: Result<Profile>): (r: State)
    ensures slot < |s.pending| ==> !r.loading && r.user == s.user
    ensures slot < |s.pending| && outcome.Ok? ==> r.profile == Some(outcome.value)
    ensures slot < |s.pending| && outcome.Err? ==> r.profile == s.profile
    ensures slot < |s.pending| ==> r.pending == RemoveAt(s.pending, slot)
    ensures slot >= |s.pending| ==> r == s
  {
    if slot >= |s.pending| then s
    else
      var rest := RemoveAt(s.pending, slot);
      match outcome
      case Ok(p) => s.(profile := Some(p), loading := false, pending := rest)
      case Err(_) => s.(loading := false, pending := rest)
  }

  /**
   `refreshProfile`, called by a page with `seen`, the user of the render
   that created the closure. The test reads that captured user, not the
   session's current one: a page whose save finishes after a sign-out or a
   change of user still fetches for the user it saw. The session's own
   fields are untouched.
   */
  function RefreshProfile(s: State, seen: Option<User>): (r: State)
    ensures seen.None? ==> r == s
    ensures seen.Some? ==> r.pending == s.pending + [seen.value.id]
    ensures r.user == s.user && r.profile == s.profile && r.loading == s.loading
  {
    if seen.Some? then StartFetch(s, seen.value.id) else s
  }

  /**
   `signOut`: after the provider call (its outcome is ignored) user and profile
   are cleared. `loading` and the fetches in flight are not touched.
   */
  function SignOut(s: State): (r: State)
    ensures r.user.None? && r.profile.None?
    ensures r.loading == s.loading && r.pending == s.pending
  {
    s.(user := None, profile := None)
  }

  lemma SignOutIdempotent(s: State)
    ensures SignOut(SignOut(s)) == SignOut(s)
  {
  }

  datatype SignInReply = SignInReply(state: State, error: Option<ProviderError>)

  /**
   `signIn`, given the provider's answer to `signInWithPassword`: the user
   record it returns, if any. Failure returns the error and changes nothing;
   success starts a profile fetch for the returned user but does not set
   `user` itself (that is left to the auth-change stream).
   */
  function SignIn(s: State, auth: Result<Option<User>>): (r: SignInReply)
    ensures auth.Err? ==> r.error == Some(auth.error) && r.state == s
    ensures auth.Ok? ==> r.error.None?
    ensures r.state.user == s.user && r.state.profile == s.profile && r.state.loading == s.loading
    ensures auth.Ok? && auth.value.Some? ==> r.state.pending == s.pending + [auth.value.value.id]
    ensures auth.Ok? && auth.value.None? ==> r.state == s
  {
    match auth
    case Err(e) => SignInReply(s, Some(e))
    case Ok(None) => SignInReply(s, None)
    case Ok(Some(u)) => SignInReply(StartFetch(s, u.id), None)
  }

  datatype SignUpReply = SignUpReply(state: State, inserted: Option<ProfileRow>, error: Option<ProviderError>)

  /** The row step 2 of `signUp` writes for the new identity `id`. */
  function NewProfileRow(id: string, data: SignUpData): (r: ProfileRow)
    ensures r.role == DefaultRole
    ensures r.id == id && r.email == data.email
    ensures r.fullName == data.fullName && r.nik == data.nik && r.address == data.address
    ensures data.phone.Some? ==> r.phone == data.phone.value
    ensures data.phone.None? ==> r.phone == ""
  {
    ProfileRow(id, data.email, data.fullName, data.nik, data.address, OrElse(data.phone, ""), DefaultRole)
  }

  /**
   `signUp`: (1) create the identity, (2) insert the profile row, (3) fetch it.
   `auth` is the provider's answer to step 1 and `insertError` the outcome of
   step 2 (consulted only when step 2 runs). A failing step returns its error
   and no later step runs.
   */
  function SignUp(s: State, data: SignUpData, auth: Result<Option<User>>, insertError: Option<ProviderError>): (r: SignUpReply)
    ensures r.state.user == s.user && r.state.profile == s.profile && r.state.loading == s.loading
    ensures auth.Err? ==> r == SignUpReply(s, None, Some(auth.error))
    ensures auth == Ok(None) ==> r == SignUpReply(s, None, Some(ProviderError(UserCreationFailed)))
    ensures r.inserted.Some? <==> auth.Ok? && auth.value.Some?
    ensures r.inserted.Some? ==> r.inserted.value == NewProfileRow(auth.value.value.id, data)
    ensures r.inserted.Some? ==> r.inserted.value.role == DefaultRole && r.inserted.value.id == auth.value.value.id
    ensures r.error.None? <==> auth.Ok? && auth.value.Some? && insertError.None?
    ensures auth.Ok? && auth.value.Some? && insertError.Some? ==> r.error == insertError
    ensures r.error.None? ==> r.state.pending == s.pending + [auth.value.value.id]
    ensures r.error.Some? ==> r.state == s
  {
    match auth
    case Err(e) => SignUpReply(s, None, Some(e))
    case Ok(None) => SignUpReply(s, None, Some(ProviderError(UserCreationFailed)))
    case Ok(Some(u)) =>
      var row := NewProfileRow(u.id, data);
      match insertError
      case Some(e) => SignUpReply(s, Some(row), Some(e))
      case None => SignUpReply(StartFetch(s, u.id), Some(row), None)
  }

  /** Everything that can happen to the session, one step at a time. */
  datatype Event =
    | ProbeResolved(session: Option<User>)
    | AuthChanged(session: Option<User>)
    | ProfileFetched(slot: nat, outcome: Result<Profile>)
    | SignInAnswered(auth: Result<Option<User>>)
    | SignUpAnswered(data: SignUpData, auth: Result<Option<User>>, insertError: Option<ProviderError>)
    | SignedOut
    | Refreshed(seen: Option<User>)

  /**
   One event. No event sets `loading` back to true, and the only way to a
   stored profile other than the previous one is a fetch completing with
   that very record.
   */
  function Step(s: State, e: Event): (r: State)
    ensures !s.loading ==> !r.loading
    ensures r.profile.Some? && r.profile != s.profile ==> e.ProfileFetched? && e.outcome == Ok(r.profile.value)
  {
    match e
    case ProbeResolved(session) => OnProbe(s, session)
    case AuthChanged(session) => OnAuthChange(s, session)
    case ProfileFetched(slot, outcome) => OnFetched(s, slot, outcome)
    case SignInAnswered(auth) => SignIn(s, auth).state
    case SignUpAnswered(data, auth, insertError) => SignUp(s, data, auth, insertError).state
    case SignedOut => SignOut(s)
    case Refreshed(seen) => RefreshProfile(s, seen)
  }

  function Run(s: State, es: seq<Event>): State
    decreases |es|
  {
    if |es| == 0 then s else Run(Step(s, es[0]), es[1..])
  }

  /** Nothing ever sets `loading` back to true: once settled, always settled. */
  lemma {:induction false} SettledStaysSettled(s: State, es: seq<Event>)
    requires !s.loading
    ensures !Run(s, es).loading
    decreases |es|
  {
    if |es| > 0 {
      SettledStaysSettled(Step(s, es[0]), es[1..]);
    }
  }

  /** A record the backend delivered for some fetch in `es`. */
  ghost predicate Delivered(es: seq<Event>, p: Profile) {
    exists i :: 0 <= i < |es| && es[i].ProfileFetched? && es[i].outcome == Ok(p)
  }

  /**
   The stored profile is either the one the trace started with or a record
   some completed fetch delivered: no step invents a profile.
   */
  lemma {:induction false} ProfileComesFromFetch(s: State, es: seq<Event>)
    ensures Run(s, es).profile.None? || Run(s, es).profile == s.profile || Delivered(es, Run(s, es).profile.value)
    decreases |es|
  {
    if |es| > 0 {
      var s1 := Step(s, es[0]);
      ProfileComesFromFetch(s1, es[1..]);
      var r := Run(s, es);
      if r.profile.Some? && r.profile != s.profile {
        if r.profile == s1.profile {
          assert es[0].ProfileFetched? && es[0].outcome == Ok(r.profile.value);
          assert Delivered(es, r.profile.value);
        } else {
          var i :| 0 <= i < |es[1..]| && es[1..][i].ProfileFetched? && es[1..][i].outcome == Ok(r.profile.value);
          assert es[i + 1] == es[1..][i];
        }
      }
    }
  }

  // ---------------------------------------------------------------------------
  // Traces that show what the missing stale-response guard allows
  // ---------------------------------------------------------------------------

  function SampleProfile(id: string, role: string): Profile {
    Profile(id, id + "@desa", id, "0", "-", None, role, None)
  }

  /**
   User one signs in through the stream, then user two; user two's fetch
   completes first and user one's last. The record of user one ends up stored
   while user two is the current user.
   */
  lemma StaleProfileOverwritesNewer()
    ensures var u1 := User("u1", None);
            var u2 := User("u2", None);
            var p1 := SampleProfile("u1", DefaultRole);
            var p2 := SampleProfile("u2", AdminRole);
            var r := Run(Init(), [AuthChanged(Some(u1)), AuthChanged(Some(u2)),
                                  ProfileFetched(1, Ok(p2)), ProfileFetched(0, Ok(p1))]);
            r.user == Some(u2) && r.profile == Some(p1) && r.profile.value.id != r.user.value.id
            && !IsAdmin(r) && !r.loading && r.pending == []
  {
    var u1 := User("u1", None);
    var u2 := User("u2", None);
    var p1 := SampleProfile("u1", DefaultRole);
    var p2 := SampleProfile("u2", AdminRole);
    var es := [AuthChanged(Some(u1)), AuthChanged(Some(u2)), ProfileFetched(1, Ok(p2)), ProfileFetched(0, Ok(p1))];
    var s1 := Step(Init(), es[0]);
    var s2 := Step(s1, es[1]);
    assert s2.pending == ["u1", "u2"];
    var s3 := Step(s2, es[2]);
    assert s3.pending == ["u1"];
    assert s3.profile == Some(p2);
    var s4 := Step(s3, es[3]);
    assert s4.pending == [];
    assert Run(s4, []) == s4;
    assert Run(s3, [es[3]]) == s4;
    assert Run(s2, [es[2], es[3]]) == s4;
    assert Run(s1, [es[1], es[2], es[3]]) == s4;
    assert Run(Init(), es) == s4;
  }

  /**
   A fetch still in flight when the user signs out completes afterwards: the
   session ends with no user but a stored profile, which may even be an
   administrator's.
   */
  lemma ProfileOutlivesSignOut()
    ensures var u := User("a", None);
            var p := SampleProfile("a", AdminRole);
            var r := Run(Init(), [AuthChanged(Some(u)), SignedOut, ProfileFetched(0, Ok(p))]);
            r.user.None? && r.profile == Some(p) && IsAdmin(r) && !r.loading
  {
    var u := User("a", None);
    var p := SampleProfile("a", AdminRole);
    var es := [AuthChanged(Some(u)), SignedOut, ProfileFetched(0, Ok(p))];
    var s1 := Step(Init(), es[0]);
    var s2 := Step(s1, es[1]);
    assert s2.pending == ["a"];
    var s3 := Step(s2, es[2]);
    assert Run(s3, []) == s3;
    assert Run(s2, [es[2]]) == s3;
    assert Run(s1, [es[1], es[2]]) == s3;
    assert Run(Init(), es) == s3;
  }

  /**
   A save that finishes after its user signed out still refreshes for that
   user: the refresh's fetch joins the stream's, and when it completes its
   record is stored although nobody is signed in.
   */
  lemma RefreshAfterSignOut()
    ensures var u := User("a", None);
            var p := SampleProfile("a", DefaultRole);
            var s := Run(Init(), [AuthChanged(Some(u)), SignedOut, Refreshed(Some(u))]);
            && s.pending == ["a", "a"]
            && var r := Step(s, ProfileFetched(1, Ok(p)));
               r.user.None? && r.profile == Some(p) && r.pending == ["a"]
  {
    var u := User("a", None);
    var es := [AuthChanged(Some(u)), SignedOut, Refreshed(Some(u))];
    var s1 := Step(Init(), es[0]);
    var s2 := Step(s1, es[1]);
    var s3 := Step(s2, es[2]);
    assert s3.pending == ["a", "a"];
    assert Run(s3, []) == s3;
    assert Run(s2, [es[2]]) == s3;
    assert Run(s1, [es[1], es[2]]) == s3;
    assert Run(Init(), es) == s3;
  }

  /**
   The probe and the stream both report the same user before either fetch
   completes; two fetches run, and once both complete the session is settled
   with that user's record.
   */
  lemma ProbeThenStreamSameUser(u: User, p: Profile)
    requires p.id == u.id
    ensures var r := Run(Init(), [ProbeResolved(Some(u)), AuthChanged(Some(u)),
                                  ProfileFetched(0, Ok(p)), ProfileFetched(0, Ok(p))]);
            r.user == Some(u) && r.profile == Some(p) && !r.loading && r.pending == []
  {
    var es := [ProbeResolved(Some(u)), AuthChanged(Some(u)), ProfileFetched(0, Ok(p)), ProfileFetched(0, Ok(p))];
    var s1 := Step(Init(), es[0]);
    assert s1.loading && s1.pending == [u.id];
    var s2 := Step(s1, es[1]);
    assert s2.loading && s2.pending == [u.id, u.id];
    var s3 := Step(s2, es[2]);
    assert s3.pending == [u.id];
    var s4 := Step(s3, es[3]);
    assert Run(s4, []) == s4;
    assert Run(s3, [es[3]]) == s4;
    assert Run(s2, [es[2], es[3]]) == s4;
    assert Run(s1, [es[1], es[2], es[3]]) == s4;
    assert Run(Init(), es) == s4;
  }

  /** The record a later fetch returns for a row written by `signUp`. */
  function ProfileOfRow(row: ProfileRow): Profile {
    Profile(row.id, row.email, row.fullName, row.nik, row.address, Some(row.phone), row.role, None)
  }

  /**
   Self-registration never yields an administrator: when `signUp` succeeds and
   its own fetch delivers the row it inserted, `isAdmin` is false.
   */
  lemma SignUpNeverGrantsAdmin(s: State, data: SignUpData, u: User)
    ensures var reply := SignUp(s, data, Ok(Some(u)), None);
            reply.error.None? && reply.inserted.Some? &&
            var r := OnFetched(reply.state, |s.pending|, Ok(ProfileOfRow(reply.inserted.value)));
            !IsAdmin(r) && !r.loading && r.profile.value.id == u.id
  {
  }

  /**
   Step 1 of `signUp` succeeds and step 2 fails: the caller gets the error,
   no fetch is started and the local profile stays absent.
   */
  lemma SignUpInsertFails(data: SignUpData, u: User, e: ProviderError)
    ensures var r := SignUp(Init(), data, Ok(Some(u)), Some(e));
            r.error == Some(e) && r.state.profile.None? && r.state.pending == []
  {
  }
}

=== FILE: settings.dfy ===
/**
 The settings page (src/pages/SettingsPage.tsx): the notification and
 security switches, and the change-password form with its validation.
 */
module Settings {

  datatype Settings = Settings(
    emailNotifications: bool,
    pushNotifications: bool,
    smsNotifications: bool,
    complaintUpdates: bool,
    adminMessages: bool,
    language: string,
    twoFactorAuth: bool)

  function InitialSettings(): Settings {
    Settings(true, false, false, true, true, "id", false)
  }

  /** The switches the page offers. */
  datatype Switch =
    | EmailNotifications
    | PushNotifications
    | SmsNotifications
    | ComplaintUpdates
    | AdminMessages
    | TwoFactorAuth

  function Get(s: Settings, k: Switch): bool {
    match k
    case EmailNotifications => s.emailNotifications
    case PushNotifications => s.pushNotifications
    case SmsNotifications => s.smsNotifications
    case ComplaintUpdates => s.complaintUpdates
    case AdminMessages => s.adminMessages
    case TwoFactorAuth => s.twoFactorAuth
  }

  /** The value after `handleSettingChange(k)` of the switch `j` currently at `v`. */
  function Flip(k: Switch, j: Switch, v: bool): bool {
    if j == k then !v else v
  }

  /** `handleSettingChange(key)`: that switch flips, every other value stays. */
  function Toggle(s: Settings, k: Switch): (r: Settings)
    ensures Get(r, k) == !Get(s, k)
    ensures forall k' :: k' != k ==> Get(r, k') == Get(s, k')
    ensures r.language == s.language
  {
    Settings(
      Flip(k, EmailNotifications, s.emailNotifications),
      Flip(k, PushNotifications, s.pushNotifications),
      Flip(k, SmsNotifications, s.smsNotifications),
      Flip(k, ComplaintUpdates, s.complaintUpdates),
      Flip(k, AdminMessages, s.adminMessages),
      s.language,
      Flip(k, TwoFactorAuth, s.twoFactorAuth))
  }

  /**
   The page opens with e-mail notifications, complaint updates and admin
   messages on, push, SMS and two-factor authentication off, in Indonesian.
   */
  lemma InitialSwitches()
    ensures InitialSettings().language == "id"
    ensures forall k :: Get(InitialSettings(), k) <==> (k == EmailNotifications || k == ComplaintUpdates || k == AdminMessages)
  {
  }

  /** Toggling the same switch twice restores the settings. */
  lemma ToggleTwice(s: Settings, k: Switch)
    ensures Toggle(Toggle(s, k), k) == s
  {
  }

  /** Toggles of different switches do not interfere. */
  lemma TogglesCommute(s: Settings, a: Switch, b: Switch)
    ensures Toggle(Toggle(s, a), b) == Toggle(Toggle(s, b), a)
  {
  }

  /** The language selector: only the language changes. */
  function SetLanguage(s: Settings, language: string): (r: Settings)
    ensures r.language == language
    ensures forall k :: Get(r, k) == Get(s, k)
  {
    s.(language := language)
  }

  /** Choosing a language and toggling a switch do not interfere. */
  lemma LanguageAndToggleCommute(s: Settings, language: string, k: Switch)
    ensures SetLanguage(Toggle(s, k), language) == Toggle(SetLanguage(s, language), k)
  {
  }

  // ---------------------------------------------------------------------------
  // Change password
  // ---------------------------------------------------------------------------

  datatype PasswordForm = PasswordForm(currentPassword: string, newPassword: string, confirmPassword: string)

  datatype PasswordPage = PasswordPage(form: PasswordForm, error: string, success: string, loading: bool)

  const MinPasswordLength := 6
  const RequiredMessage := "Semua field password harus diisi"
  const MismatchMessage := "Password baru dan konfirmasi password tidak cocok"
  const TooShortMessage := "Password baru minimal 6 karakter"
  const ChangedMessage := "Password berhasil diubah!"

  const EmptyForm := PasswordForm("", "", "")

  /** The input the page accepts, stated on its own. */
  predicate Acceptable(f: PasswordForm) {
    && f.currentPassword != "" && f.newPassword != "" && f.confirmPassword != ""
    && f.newPassword == f.confirmPassword
    && |f.newPassword| >= MinPasswordLength
  }

  /**
   `handlePasswordChange`: both messages are cleared, then the checks run in
   order (all fields filled, new equals confirmation, long enough) and the
   first failing one sets its message; when none fails the page starts
   loading.
   */
  function Submit(p: PasswordPage): (r: PasswordPage)
    ensures r.form == p.form && r.success == ""
    ensures r.error == "" <==> Acceptable(p.form)
    ensures Acceptable(p.form) ==> r.loading
    ensures !Acceptable(p.form) ==> r.loading == p.loading
    ensures (p.form.currentPassword == "" || p.form.newPassword == "" || p.form.confirmPassword == "") ==>
      r.error == RequiredMessage
    ensures (p.form.currentPassword != "" && p.form.newPassword != "" && p.form.confirmPassword != ""
             && p.form.newPassword != p.form.confirmPassword) ==>
      r.error == MismatchMessage
    ensures (p.form.currentPassword != "" && p.form.newPassword != "" && p.form.confirmPassword != ""
             && p.form.newPassword == p.form.confirmPassword && |p.form.newPassword| < MinPasswordLength) ==>
      r.error == TooShortMessage
    ensures r.error == TooShortMessage ==> p.form.newPassword == p.form.confirmPassword
  {
    var cleared := p.(error := "", success := "");
    var f := p.form;
    if f.currentPassword == "" || f.newPassword == "" || f.confirmPassword == "" then
      cleared.(error := RequiredMessage)
    else if f.newPassword != f.confirmPassword then
      cleared.(error := MismatchMessage)
    else if |f.newPassword| < MinPasswordLength then
      cleared.(error := TooShortMessage)
    else cleared.(loading := true)
  }

  /**
   A filled form whose new password is too short and does not match its
   confirmation is reported as a mismatch: the length is only checked once
   the two agree.
   */
  lemma MismatchReportedBeforeLength(p: PasswordPage)
    requires p.form.currentPassword != "" && p.form.newPassword != "" && p.form.confirmPassword != ""
    requires p.form.newPassword != p.form.confirmPassword && |p.form.newPassword| < MinPasswordLength
    ensures Submit(p).error == MismatchMessage && Submit(p).error != TooShortMessage
    ensures !Submit(p).loading || p.loading
  {
  }

  /** The delayed completion: success is reported and the form emptied. */
  function Complete(p: PasswordPage): (r: PasswordPage)
    ensures r.form == EmptyForm && r.success == ChangedMessage && !r.loading
    ensures r.error == p.error
  {
    p.(success := ChangedMessage, form := EmptyForm, loading := false)
  }

  /** The success text is cleared by a later timer. */
  function ClearSuccess(p: PasswordPage): (r: PasswordPage)
    ensures r.success == "" && r.form == p.form && r.error == p.error && r.loading == p.loading
  {
    p.(success := "")
  }

  const SettingsSavedMessage := "Pengaturan berhasil disimpan!"

  /**
   `handleSaveSettings`: the page starts loading and, when the delayed save
   completes, reports success. The settings themselves are not sent anywhere.
   */
  function StartSaveSettings(p: PasswordPage): (r: PasswordPage)
    ensures r.loading && r.form == p.form && r.error == p.error && r.success == p.success
  {
    p.(loading := true)
  }

  function FinishSaveSettings(p: PasswordPage): (r: PasswordPage)
    ensures !r.loading && r.success == SettingsSavedMessage && r.form == p.form && r.error == p.error
  {
    p.(success := SettingsSavedMessage, loading := false)
  }

  /** Saving the settings leaves the password form as it was. */
  lemma SaveSettingsKeepsPasswordForm(p: PasswordPage)
    ensures FinishSaveSettings(StartSaveSettings(p)).form == p.form
    ensures FinishSaveSettings(StartSaveSettings(p)) == p.(success := SettingsSavedMessage, loading := false)
  {
  }

  /** After a completed change the empty form would be refused until filled in again. */
  lemma CompletedFormIsRefused(p: PasswordPage)
    ensures Submit(Complete(p)).error == RequiredMessage
  {
  }
}

=== FILE: user_profile.dfy ===
/**
 The profile page (src/pages/ProfilePage.tsx): the edit form for e-mail,
 phone and avatar. Unlike the administrator's page it can also ask the
 authentication provider to change the e-mail address. The router's
 resident profile screen renders a different component (UserProfilePage,
 imported at src/App.tsx:9), which is not part of this model.
 */
module UserProfile {
  import opened Common
  import Avatar
  import Session
  import ProfileForm

  datatype UserEdit = UserEdit(email: string, phone: string, avatarUrl: string)

  type Page = ProfileForm.Form<UserEdit>

  function InitialPage(): (f: Page)
    ensures !f.editing && !f.loading && f.imageFile.None? && f.preview.None?
    ensures f.data == UserEdit("", "", "") && f.error == "" && f.success == ""
  {
    ProfileForm.Form(false, UserEdit("", "", ""), None, None, false, "", "")
  }

  /** `user?.email`: absent when there is no user or the user has no address. */
  function EmailOf(user: Option<Session.User>): (e: Option<string>)
    ensures user.Some? ==> e == user.value.email
    ensures user.None? ==> e.None?
  {
    match user
    case Some(u) => u.email
    case None => None
  }

  /**
   The effect that runs when the profile or the user changes: with a
   profile, e-mail comes from the user (empty when absent), phone from the
   profile (empty when absent) and the avatar from the profile, or a
   generated placeholder when it has none; without a profile nothing changes.
   */
  function Prefill(f: Page, user: Option<Session.User>, profile: Option<Session.Profile>,
                   encode: string -> string): (r: Page)
    ensures profile.None? ==> r == f
    ensures profile.Some? ==> r == f.(data := r.data)
    ensures profile.Some? ==> r.data.email == OrElse(EmailOf(user), "")
    ensures profile.Some? ==> r.data.phone == OrElse(profile.value.phone, "")
    ensures profile.Some? && Truthy(profile.value.avatarUrl) ==> r.data.avatarUrl == profile.value.avatarUrl.value
    ensures profile.Some? && !Truthy(profile.value.avatarUrl) ==>
      r.data.avatarUrl == Avatar.Placeholder(profile.value.fullName, Avatar.ResidentColours, encode)
  {
    match profile
    case None => f
    case Some(p) =>
      f.(data := UserEdit(OrElse(EmailOf(user), ""), OrElse(p.phone, ""),
                          OrElse(p.avatarUrl, Avatar.Placeholder(p.fullName, Avatar.ResidentColours, encode))))
  }

  /**
   `handleCancel`: e-mail, phone and avatar go back to the stored values,
   with the empty string (not the placeholder) for an absent one.
   */
  function CancelEdit(f: Page, user: Option<Session.User>, profile: Option<Session.Profile>): (r: Page)
    ensures r.data.email == OrElse(EmailOf(user), "")
    ensures profile.Some? ==>
      r.data.phone == OrElse(profile.value.phone, "") && r.data.avatarUrl == OrElse(profile.value.avatarUrl, "")
    ensures profile.None? ==> r.data.phone == "" && r.data.avatarUrl == ""
    ensures !r.editing && r.imageFile.None? && r.preview.None? && r.error == ""
    ensures r.loading == f.loading && r.success == f.success
  {
    var restored := match profile
      case None => UserEdit(OrElse(EmailOf(user), ""), "", "")
      case Some(p) => UserEdit(OrElse(EmailOf(user), ""), OrElse(p.phone, ""), OrElse(p.avatarUrl, ""));
    ProfileForm.Cancel(f, restored)
  }

  /** After a cancel, the form holds what a fresh prefill from a profile with an avatar would show. */
  lemma CancelRestoresPrefill(f: Page, g: Page, user: Option<Session.User>, p: Session.Profile,
                              encode: string -> string)
    requires Truthy(p.avatarUrl)
    ensures CancelEdit(g, user, Some(p)).data == Prefill(f, user, Some(p), encode).data
  {
  }

  /** `editData.email !== user?.email`: the e-mail update to request, if any. */
  function EmailChange(edited: string, current: Option<string>): (r: Option<string>)
    ensures r.Some? <==> current != Some(edited)
    ensures r.Some? ==> r.value == edited
  {
    if current != Some(edited) then Some(edited) else None
  }

  /**
   `handleSave` on this page: upload, row update, then the e-mail update
   when the edited address differs from the user's, then a refresh.
   */
  function SaveProfile(f: Page, user: Option<Session.User>, now: nat, uploaded: Option<string>,
                       rowError: Option<ProviderError>, emailError: Option<ProviderError>): (r: ProfileForm.Saved<UserEdit>)
    ensures !r.form.loading && r.form.data == f.data
    ensures r.effects == ProfileForm.SaveEffects(f, Session.UserId(user), ProfileForm.UploadPath(f, Session.UserId(user), now),
                                                 f.data.phone, f.data.avatarUrl, EmailChange(f.data.email, EmailOf(user)),
                                                 uploaded, rowError, emailError)
    ensures ProfileForm.SaveOutcome(f, Session.UserId(user), ProfileForm.UploadPath(f, Session.UserId(user), now),
                                    f.data.phone, f.data.avatarUrl, EmailChange(f.data.email, EmailOf(user)),
                                    uploaded, rowError, emailError, r)
    ensures r.form.error == "" ==> r.form.success == ProfileForm.SavedMessage
    ensures r.form.error != "" ==> r.form.success == ""
    ensures f.imageFile.Some? ==>
      |r.effects| > 0 && r.effects[0] == ProfileForm.Upload(Avatar.AvatarPath(Session.UserId(user), now, f.imageFile.value.name))
    ensures f.imageFile.Some? && !Truthy(uploaded) ==>
      |r.effects| == 1 && r.form.error == ProfileForm.UploadFailedMessage
    ensures f.imageFile.None? ==>
      |r.effects| > 0 && r.effects[0] == ProfileForm.UpdateRow(Session.UserId(user), f.data.phone, f.data.avatarUrl)
    ensures f.imageFile.Some? && Truthy(uploaded) ==>
      |r.effects| > 1 && r.effects[1] == ProfileForm.UpdateRow(Session.UserId(user), f.data.phone, uploaded.value)
    ensures rowError.Some? ==> forall i :: 0 <= i < |r.effects| ==> !r.effects[i].UpdateEmail?
    ensures ProfileForm.EmailAfterRow(r.effects, EmailChange(f.data.email, EmailOf(user)))
    ensures r.form.error == "" <==>
      (f.imageFile.None? || Truthy(uploaded)) && rowError.None? && (EmailOf(user) != Some(f.data.email) ==> emailError.None?)
    ensures (f.imageFile.None? || Truthy(uploaded)) && rowError.Some? ==>
      r.form.error == ProfileForm.FailureText(rowError.value.message)
    ensures (f.imageFile.None? || Truthy(uploaded)) && rowError.None? && EmailOf(user) != Some(f.data.email) && emailError.Some? ==>
      r.form.error == ProfileForm.FailureText(emailError.value.message)
    ensures ProfileForm.Refreshed(r.effects) <==> r.form.error == ""
    ensures r.form.error == "" ==> !r.form.editing && r.form.preview.None? && r.form.imageFile.None?
    ensures r.form.error != "" ==>
      r.form.editing == f.editing && r.form.imageFile == f.imageFile && r.form.preview == f.preview
  {
    var change := EmailChange(f.data.email, EmailOf(user));
    ProfileForm.Save(f, Session.UserId(user), ProfileForm.UploadPath(f, Session.UserId(user), now), f.data.phone, f.data.avatarUrl,
                     change, uploaded, rowError, emailError)
  }

  /**
   The steps of a save on this page: a failed upload stops before the row;
   once the row is written, a differing e-mail is always sent on; a fully
   successful save leaves editing, drops the image and preview, and refreshes.
   */
  lemma SaveSteps(f: Page, user: Option<Session.User>, now: nat, uploaded: Option<string>,
                  rowError: Option<ProviderError>, emailError: Option<ProviderError>)
    ensures var r := SaveProfile(f, user, now, uploaded, rowError, emailError);
      && (f.imageFile.Some? && !Truthy(uploaded) ==>
            |r.effects| == 1 && r.effects[0].Upload? && r.form.error == ProfileForm.UploadFailedMessage)
      && ((f.imageFile.None? || Truthy(uploaded)) && rowError.None? && EmailOf(user) != Some(f.data.email) ==>
            ProfileForm.UpdateEmail(f.data.email) in r.effects)
      && (r.form.error == "" ==>
            !r.form.editing && r.form.preview.None? && r.form.imageFile.None? && ProfileForm.Refreshed(r.effects))
  {
    var change := EmailChange(f.data.email, EmailOf(user));
    var r := SaveProfile(f, user, now, uploaded, rowError, emailError);
    assert r == ProfileForm.Save(f, Session.UserId(user), ProfileForm.UploadPath(f, Session.UserId(user), now), f.data.phone, f.data.avatarUrl, change, uploaded, rowError, emailError);
  }

  /**
   A failing e-mail change comes after a successful row update: the phone
   and avatar are written, the error is reported and no refresh happens.
   */
  lemma EmailFailureKeepsRowUpdate(f: Page, user: Option<Session.User>, now: nat, e: ProviderError)
    requires f.imageFile.None? && EmailOf(user) != Some(f.data.email)
    ensures var r := SaveProfile(f, user, now, None, None, Some(e));
            && r.effects[0] == ProfileForm.UpdateRow(Session.UserId(user), f.data.phone, f.data.avatarUrl)
            && r.effects[1] == ProfileForm.UpdateEmail(f.data.email)
            && r.form.error != "" && !ProfileForm.Refreshed(r.effects)
  {
    var r := SaveProfile(f, user, now, None, None, Some(e));
    var change := EmailChange(f.data.email, EmailOf(user));
    assert r == ProfileForm.Save(f, Session.UserId(user), ProfileForm.UploadPath(f, Session.UserId(user), now), f.data.phone, f.data.avatarUrl, change, None, None, Some(e));
    assert ProfileForm.UpdateEmail(f.data.email) in r.effects;
  }
}
